=== FILE: README.md ===
# A 40-day meal and workout plan, modelled in Dafny

The application is a single-user tracker for a 40-day meal and workout plan. The
plan starts on Friday 31 March 2023 and ends on 9 May 2023. Its parts are:

- an in-memory store (`MemStorage`), seeded with a weekly catalog of meals,
  workouts and exercises, and holding at most one progress record per day, created
  the first time that day is read or posted (a patch carrying `dayNumber` can break
  the "at most one");
- an Express API plus a serverless copy of part of it;
- a React client that turns check-box clicks into progress patches, moves between
  weeks, and tallies a weekly summary.

The model follows that structure. There is one Dafny module per source file:

| module | file |
|---|---|
| `Schema` | `shared/schema.ts` |
| `Storage` | `server/storage.ts` (the store operations) |
| `Seed` | `server/storage.ts` (the seed table) |
| `Routes` | `server/routes.ts` |
| `Serverless` | `api/index.js` |
| `Utils` | `client/src/lib/utils.ts` |
| `MealPlanData` | `client/src/data/meal-plan-data.ts` |
| `WeeklySummary` | `client/src/components/weekly-summary.tsx` |
| `Home` | `client/src/pages/home.tsx` |
| `ProgressBar` | `client/src/components/ui/progress.tsx` |

Four small helper modules support them:

- `Wrappers`: `Option` and `Result`.
- `Seqs`: the order-preserving `filter` and `find` every store lookup uses.
- `Text`: ASCII lower-casing.
- `Numbers`: JavaScript numbers (finite, `NaN` and the infinities) and the facts about real division the percentages need.

How the model represents the program:

- **The store is a value.** Each JavaScript `Map` is a sequence of records in insertion order, next to its id counter. A handler is a pure function from the parsed request, the store (and a clock reading) to a response and the new store. `Store.Valid` is the invariant the id counters keep: the ids of a table are 1, 2, 3, … and the counter is the next one.
- **Completion columns are texts.** They stay texts (`IdListText`) because their falsiness matters: `Blank` is the empty string, `Json(ids)` is a serialised list, and `Garbled` is anything `JSON.parse` rejects.
- **Path parameters arrive parsed.** `None` stands for the `NaN` of `parseInt`.
- **Dates and instants are numbers.** A date is a day count since 1970-01-01, and an instant is milliseconds since the Unix epoch.
- **Statuses are an enum:** 200, 400, 404 and 500.

Behaviour of the code that is easy to mistake (the model follows the code):

- **New records usually get null notes.** A record created by a read, by a POST to `/api/progress` whose body has no, null or empty notes, or by a POST to `/api/notes` with empty notes, gets `notes` null: `createProgress` turns the `""` it is handed into null. A POST that carries non-empty notes creates a record with those notes.
- **The weekly summary counts items.** It adds up ticked meals and done workouts over the whole week; it does not average per-day rates, and it has no exercise rate.
- **Week 6 spills past the plan.** The weekly summary for week 6 reads and creates records for days 41 and 42.

The serverless meals handler (`api/index.js:20-29`) is the same code as the Express one. `Routes.GetMeals` models both.

## Model

| member | source | states |
|---|---|---|
| Schema.OmitIdRoundTrip | shared/schema.ts:30-35 | the insert types of meals, workouts and exercises are the stored records minus exactly `id`: dropping the id and restoring it gives the record back |
| Schema.Merge | server/storage.ts:198 | `{ ...existing, ...patch }`: every column the patch carries is overwritten, every other column kept, and `id`/`createdAt` are always kept because the partial insert schema has no such keys |
| Schema.MergeEmpty | shared/schema.ts:80-83 | a patch with no keys leaves a record unchanged |
| Schema.MergeFull | shared/schema.ts:80-83 | a patch carrying every insertable column makes the record equal to the source in all but `id` and `createdAt` |
| Schema.Combine | server/storage.ts:198 | two successive merges are one merge of a combined patch in which the later keys win |
| Storage.Empty | server/storage.ts:69-80 | the constructor's state: all tables empty, every counter at 1, which satisfies the id invariant |
| Storage.GetMeals | server/storage.ts:109-113 | exactly the meals with the given day number (each result is stored and matches; each stored match is returned) |
| Storage.GetMealsByDay | server/storage.ts:115-119 | exactly the meals with the given weekday name |
| Storage.CreateMeal | server/storage.ts:121-126 | the id is the current counter, the counter advances by one, the meal is appended, and the id invariant is kept |
| Storage.CreateMealQueries | server/storage.ts:115-126 | after a create, the meals of a weekday are the old ones followed by the new meal when it has that weekday, in insertion order |
| Storage.CreateMealDayNumberQueries | server/storage.ts:109-126 | after a create, the meals of a plan day are the old ones followed by the new meal when it has that day number, in insertion order |
| Storage.GetWorkout | server/storage.ts:129-133 | the first-inserted workout with the day number, or none exactly when no workout has it |
| Storage.GetWorkoutByDay | server/storage.ts:135-139 | the first-inserted workout with the weekday name, or none exactly when no workout has it |
| Storage.CreateWorkout | server/storage.ts:141-146 | counter as id, counter advanced, appended, id invariant kept |
| Storage.CreateWorkoutQueries | server/storage.ts:135-146 | a new workout is found by weekday only when no earlier workout has that weekday |
| Storage.CreateWorkoutDayNumberQueries | server/storage.ts:129-146 | a new workout is found by day number only when no earlier workout has that day number |
| Storage.GetExercisesByWorkoutId | server/storage.ts:149-153 | exactly the exercises of the given workout |
| Storage.CreateExercise | server/storage.ts:155-166 | counter as id, counter advanced, appended with its own `workoutId`, id invariant kept |
| Storage.CreateExerciseQueries | server/storage.ts:149-166 | after a create, a workout's exercises are the old ones followed by the new one when it belongs to that workout |
| Storage.GetProgressByUserAndDay | server/storage.ts:169-173 | the first-inserted record matching both user and day, or none when no record matches |
| Storage.CreateProgress | server/storage.ts:175-190 | counter as id; a blank meal or exercise list becomes "[]", a missing or false workout flag becomes false, absent/null/"" notes become null; the record is appended; the id invariant is kept; and creating a (user, day) pair that had no record keeps at most one record per pair |
| Storage.UpdateProgress | server/storage.ts:192-201 | fails with not-found exactly when no record has the id and then changes nothing; otherwise replaces that record in place by its merge with the patch, touches no other record or table, keeps the id invariant, and keeps one-record-per-pair when the patch carries neither `userId` nor `dayNumber` |
| Storage.ExtendsTransitive | server/storage.ts:175-190 | growing the progress table by records under consecutive ids from the counter, twice, is growing it once (used for the summary's loop) |
| Storage.CreateProgressExtends | server/storage.ts:175-190 | `createProgress` appends one record under the counter's id, advances the counter and touches no other table |
| Seed.PlanDays | server/storage.ts:204-580 | the seed table lists the seven weekdays in the client's order, each with three meals and 6, 6, 5, 6, 3, 2, 2 exercises |
| Seed.SeedingPrefix | server/storage.ts:204-580 | seeding the first k weekdays leaves exactly their meals, workouts (ids 1..k) and exercises, with the id invariant |
| Seed.SeededCatalog | server/storage.ts:204-580 | after seeding, each weekday name has exactly 3 meals and one workout (id = its position + 1), with 6, 6, 5, 6, 3, 2, 2 exercises Monday to Sunday, and no progress records |
| Routes.GetMeals | server/routes.ts:11-22 | 400 only for an empty day; otherwise 200 with exactly the stored meals of the lower-cased day, so an unknown day is an empty list |
| Routes.CaseInsensitive | server/routes.ts:19-41 | the meals and workouts handlers answer alike for days that lower-case to the same text |
| Routes.GetWorkout | server/routes.ts:25-72 | 400 for an empty day, 404 when no workout has the lower-cased day; for "friday" in any case the fixed exercises 100 and 101 whatever is stored; otherwise the stored exercises of the workout found |
| Routes.GetOrCreate | server/routes.ts:87-104 | a record is created only when the (1, day) lookup fails; afterwards the lookup returns the answer; the store only grows by that record; one-record-per-pair and the id invariant are kept |
| Routes.GetProgress | server/routes.ts:75-107 | 400 and no store change for NaN; an existing record is returned with the store unchanged; a missing one is appended with id = counter, today's date, "[]", false, "[]" and null notes, the counter advanced and the meals, workouts and exercises untouched |
| Routes.GetProgressIdempotent | server/routes.ts:87-104 | a second GET for the same day returns the same record and leaves the store as the first left it |
| Routes.PostProgress | server/routes.ts:110-151 | 400 for NaN or a body the schema rejects; never 500; only the progress table and counter change; an existing record is replaced in place by the merge of the first record carrying its id (on a store with the id invariant, by its own merge) with the parsed patch; a missing record is appended under the counter's id, with today's date and the patch's meal list, workout flag and notes or their defaults, ignoring any exercise list |
| Routes.PostProgressKeepsUnique | server/routes.ts:125-141 | a POST whose patch carries neither `userId` nor `dayNumber` keeps at most one record per (user, day) |
| Routes.PatchCarryingDayNumberBreaksUniqueness | server/routes.ts:117-140 | the schema admits a patch with `dayNumber`, and one such POST leaves two records for the same day |
| Routes.PostNotes | server/routes.ts:154-189 | 400 for NaN or non-string notes; only the progress table and counter change; an existing record changes only its notes (an empty string included), in place; a missing record is appended under the counter's id with today's date, "[]", false, "[]" and the notes, "" stored as null; one-record-per-pair is kept |
| Routes.WeeklySummary | server/routes.ts:192-229 | 400 and no store change outside weeks 1..6; otherwise exactly 7 records, the i-th being the record of day (w-1)*7+1+i: the record the store already had for that day, or else a blank one (today's date, "[]", false, "[]", null notes) created now; the store gains exactly the created records, in day order, under consecutive ids from the counter, and nothing else changes; one-record-per-pair and the id invariant are kept |
| Routes.WeekStep | server/routes.ts:209-226 | one iteration of the summary loop adds the day's record to the list (and to the store when it was missing) and leaves the lookups of later days as they were before the request |
| Routes.ReadThrough | server/routes.ts:213-222 | one read of the summary loop returns the day's record, or appends a blank one under the next id, and changes no other day's lookup |
| Routes.FindAppendKeys | server/routes.ts:209-226 | appending records for one day changes no other day's lookup and keeps an existing answer for that day |
| Serverless.ExerciseTable | api/index.js:46-85 | the table has an entry list exactly for the seven lower-case weekday names, each list shorter than 100 |
| Serverless.TableSizes | api/index.js:46-85 | the lists have 5, 6, 4, 5, 2, 1, 1 entries Monday to Sunday |
| Serverless.GetWorkout | api/index.js:32-109 | 400 for an empty day; 404 when no workout has the lower-cased day, before the table is consulted; for a weekday, entry i gets id `workout.id*100 + i`, the workout's id and the entry's name and reps, in table order; otherwise the stored exercises |
| Serverless.SyntheticIdInjective | api/index.js:89-94 | below 100 entries, a synthetic id determines its workout id and position |
| Serverless.SyntheticIdsDistinct | api/index.js:46-94 | the exercises built from table lists (all shorter than 100) for different workouts, or at different positions, have different ids |
| Serverless.SeededNeverFallsBack | api/index.js:87-108 | in the seeded store every workout found has a weekday the table covers, so the stored-exercises fallback is never reached |
| Serverless.SeededFridayIds | api/index.js:87-94 | on the seeded store both servers answer Friday with 200 and two exercises: ids 500 and 501 from the serverless handler, 100 and 101 from the Express one |
| Serverless.GetProgress | api/index.js:112-139 | 400 for NaN; an existing record is returned with the store unchanged; a missing one is appended under the counter's id with today's date, "[]", false, "[]" and null notes, and nothing else changes |
| Serverless.SameAsExpress | api/index.js:112-139 | the serverless and Express progress readers give the same response and the same store for every request |
| Utils.JsRem | client/src/lib/utils.ts:34-36 | JavaScript `%` for a positive divisor: the remainder of truncating division, with the sign of the dividend |
| Utils.WeekNumber | client/src/lib/utils.ts:29-31 | `ceil(d/7)`: d lies in week r exactly when 7(r-1) < d <= 7r; days 1..40 are in weeks 1..6 |
| Utils.WeekNumberMonotonic | client/src/lib/utils.ts:29-31 | later days never fall in earlier weeks |
| Utils.DayOfWeek | client/src/lib/utils.ts:34-36 | lies in 0..6 for d >= 1 and in -6..0 for d < 1 |
| Utils.WeekAndWeekday | client/src/lib/utils.ts:29-36 | for d >= 1, d-1 = 7*(week-1) + weekday |
| Utils.DayOfWeekPeriodic | client/src/lib/utils.ts:34-36 | for d >= 1 the weekday repeats every 7 days |
| Utils.DayName | client/src/lib/utils.ts:39-53 | a name exactly when the weekday index is not negative, always for d >= 1, and the name at that index |
| Utils.DayNameFacts | client/src/lib/utils.ts:39-53 | day 1 is "monday", day 7 is "sunday", and the name of d+7 is the name of d for d >= 1 |
| Utils.DateOfDay | client/src/lib/utils.ts:56-61 | the date is the start date plus d-1 days |
| Utils.ConsecutiveDates | client/src/lib/utils.ts:56-61 | consecutive day numbers give consecutive dates |
| Utils.TotalCalories | client/src/lib/utils.ts:64-66 | 0 for no meals, a single meal's calories for one meal, and not negative when no meal has negative calories; with `TotalCaloriesAppend` this fixes the sum |
| Utils.TotalCaloriesAppend | client/src/lib/utils.ts:64-66 | the total of two lists is the sum of their totals |
| Utils.SafeJsonParse | client/src/lib/utils.ts:69-75 | the parsed list when the text parses, the fallback otherwise |
| MealPlanData.EndDateIsLastPlanDay | client/src/data/meal-plan-data.ts:11 | the hard-coded end date is the date of plan day 40 |
| MealPlanData.GenerateDayMappings | client/src/data/meal-plan-data.ts:14-44 | exactly 40 entries with day numbers 1..40 in order, each dated start date plus dayNumber-1 days |
| MealPlanData.JsSlice | client/src/data/meal-plan-data.ts:50 | `Array.prototype.slice` with negative and out-of-range indices clamped as JavaScript does |
| MealPlanData.GetWeekDays | client/src/data/meal-plan-data.ts:47-51 | week w holds days (w-1)*7+1 onward, in order and dated: 7 entries for weeks 1-5, 5 for week 6, none for week 0 or weeks after 6 |
| MealPlanData.CurrentDayNumber | client/src/data/meal-plan-data.ts:92-110 | 1 before the start, 40 after the end date, otherwise the whole days elapsed plus one; always in 1..40 |
| MealPlanData.CurrentWeek | client/src/data/meal-plan-data.ts:70-89 | 1 before the start, 6 after the end date, otherwise the whole weeks elapsed plus one; always in 1..6 |
| MealPlanData.CurrentWeekOfCurrentDay | client/src/data/meal-plan-data.ts:70-110 | at every instant the current week is the week number of the current day |
| MealPlanData.CurrentDayNumberMonotonic | client/src/data/meal-plan-data.ts:92-110 | the current day never moves backwards in time |
| Numbers.Divide | client/src/components/weekly-summary.tsx:42 | JavaScript division: a finite quotient q with q*b = a exactly for a non-zero divisor; over zero, NaN for 0, Infinity for a positive and -Infinity for a negative dividend |
| WeeklySummary.Percentage | client/src/components/weekly-summary.tsx:42 | the JavaScript value of `(completed / total) * 100`: a finite p with p*total = completed*100 exactly for a non-zero total, within 0..100 when completed is within 0..total; NaN for 0/0; Infinity (or -Infinity) for a positive (negative) count over a zero total |
| WeeklySummary.MealsCompletedAppend | client/src/components/weekly-summary.tsx:31-37 | the meal tally of two lists of days is the sum of their tallies; with the one-day case of the tally (the day's parsed list length) this fixes the tally as the sum of the list lengths |
| WeeklySummary.MealCompletion | client/src/components/weekly-summary.tsx:28-44 | total always 21; with data, completed is the week's meal tally; 0 completed with no data or no days |
| WeeklySummary.MealPercentageCanExceedHundred | client/src/components/weekly-summary.tsx:31-43 | nothing caps the meal tally: a list with a repeated id counts every copy and can exceed 100% |
| WeeklySummary.WorkoutTally | client/src/components/weekly-summary.tsx:50-62 | the total counts the days that are not saturday/sunday or whose workout is done; completed counts the done days; completed <= total <= number of days |
| WeeklySummary.WorkoutCompletion | client/src/components/weekly-summary.tsx:47-69 | {0, 5} with no data, otherwise the tally of the days |
| WeeklySummary.NoWeekendCountsEveryDay | client/src/components/weekly-summary.tsx:55-57 | when no day names a weekend, the workout total is the number of days |
| WeeklySummary.AsWrittenWeekTotalIsSeven | client/src/components/weekly-summary.tsx:53-62 | for the seven records the server returns, the workout total is always 7 |
| WeeklySummary.ByDayWeekTotal | client/src/components/weekly-summary.tsx:53-62 | with each record's weekday taken from its plan day, a summary week's workout total is 5 plus the weekend days with a done workout |
| WeeklySummary.ByDayIdleWeek | client/src/components/weekly-summary.tsx:48-62 | with weekdays taken from the plan day, a week with no workout done scores {0, 5}, as the no-data default does |
| WeeklySummary.WalkCompletion | client/src/components/weekly-summary.tsx:72-89 | total always 7; completed is the number of days with the walk flag, 0 with no data |
| WeeklySummary.ServerDataHasNoWalks | client/src/components/weekly-summary.tsx:78-82 | progress records carry no walk flag, so a summary of server data counts no walks |
| Home.ToggleMeal | client/src/pages/home.tsx:127-144 | nothing is sent without a loaded record or when its list does not parse; otherwise a patch with only the meal list, which is the old list (a blank one read as empty) with the meal appended, or with every copy removed |
| Home.Toggled | client/src/pages/home.tsx:132-139 | ticking appends the id at the end, even when present; unticking removes every copy of the id and keeps the other ids: an empty list stays empty and a one-element list is dropped exactly when it is the id |
| Home.UntickDistributes | client/src/pages/home.tsx:136-139 | unticking a concatenation unticks each part in place, so with the one-element case the other ids keep their order and their multiplicity |
| Home.TickUntickRestores | client/src/pages/home.tsx:132-139 | ticking a meal not in the list and then unticking it restores the list exactly |
| Home.UntickIdempotent | client/src/pages/home.tsx:136-139 | unticking twice is unticking once |
| Home.TickTwiceDuplicates | client/src/pages/home.tsx:133-135 | ticking twice leaves two copies of the id |
| Home.ToggleWorkout | client/src/pages/home.tsx:147-151 | the workout patch carries only `workoutCompleted` |
| Home.PostedTogglesChangeOneColumn | client/src/pages/home.tsx:127-151 | posting a meal or workout patch for a day with a record changes exactly the meal list or the workout flag of that record |
| Home.PrevWeek | client/src/pages/home.tsx:159-165 | for w > 1, week w-1 with its first day (a Monday of that week) selected; at w <= 1 nothing changes; weeks stay within 1..6, and from weeks 2..7 the selected day is within 1..36 |
| Home.NextWeek | client/src/pages/home.tsx:167-173 | for w < 6, week w+1 with its first day selected; at w >= 6 nothing changes; weeks stay within 1..6 and the day within the plan |
| Home.WeekStartCoordinates | client/src/pages/home.tsx:163-171 | the day navigation selects lies in the new week and is weekday 0 |
| Home.NavigationRoundTrip | client/src/pages/home.tsx:159-173 | back then forward (or forward then back) returns to the same week with its first day selected |
| Home.SumFromTotal | client/src/pages/home.tsx:181 | the page's front-to-back `reduce` equals its start value plus the calorie total |
| Home.DayCalories | client/src/pages/home.tsx:181 | the sum of the loaded meals' calories, or 0 when none are loaded |
| ProgressBar.Width | client/src/components/ui/progress.tsx:12-13 | a missing value gives 0; for max > 0 a value within 0..max gives value/max*100, and every value the width within 0..100: 0 at or below 0 (-Infinity included) and 100 at or above max (Infinity included); max < 0 gives 100; max 0 or a NaN value gives NaN |
| ProgressBar.WidthMonotonic | client/src/components/ui/progress.tsx:13 | a larger value never gives a narrower bar |
| ProgressBar.DefaultMaxKeepsPercentages | client/src/components/ui/progress.tsx:12-13 | with the default max of 100, a value in 0..100 is drawn as it is |
| ProgressBar.SummaryBars | client/src/components/ui/progress.tsx:13 | a summary bar shows its percentage when the tally is within its total, is full when the tally reaches or exceeds it or when a non-zero tally has a zero total (Infinity), and is NaN for 0/0 |

## Left out

- Rendering, hooks, react-query fetching, toasts and the presentational components are left out. Only the handler and aggregation logic is modelled.
- Express plumbing, HTTP servers and logging are left out. Status codes remain, as an enum.
- `JSON.parse`/`JSON.stringify` and `parseInt` are builtin behaviour. A completion column is modelled as a blank, a list of ids, or unparseable text. Texts that parse to something other than a list are not modelled.
- Lower-casing covers ASCII only. The route parameters are weekday names.
- Host time zones, `toISOString` and `toLocaleDateString` formatting are left out. So are `getWeekDateRange`, `formatDate` and `formatDateRange`, which produce display text only. "Today" and "now" are one clock reading per request, passed in as a parameter.
- The calendar-derived weekday name in `generateDayMappings` (client/src/data/meal-plan-data.ts:21-38) is left out. It depends on the host time zone.
- The user, reminder and notification members, and `getDayMappingByNumber`, are declared in `IStorage` but not implemented or used.
- Seeding runs in an un-awaited async block in the constructor. It is modelled as finished before any request.
- Prototype keys of `dayToExercisesMap` (such as "constructor") are not modelled. They could only matter for a stored workout with such a weekday name, and the seed has none.
- Routes.PostProgress: that the updated record is the merge of the record found by (user, day) is stated only for a store with the id invariant. On an arbitrary store `updateProgress` looks the id up again and can hit an earlier record carrying the same id; the contract then says only that a record carrying that id is merged in place.
- ProgressBar.Width: `max` is a finite number. The summary bars use the default of 100; a `NaN` or infinite `max` is not modelled.
- MealPlanData.GetWeekDays: the contract says nothing for negative week numbers, where `slice` counts from the end. The client never asks for them.

## Findings

| source | as written | input that shows it | evidently intended | confidence | as-written member | corrected member |
|---|---|---|---|---|---|---|
| client/src/components/weekly-summary.tsx:53-62 | a day is excused from the workout total when its `day` field is "saturday" or "sunday", but the progress records the summary receives have no `day` field | the 7 records of any week with no workout done: total 7, so 0/7 | weekends excused by their plan day's weekday name: total 5 (the default shown before data loads), so 0/5 | not executed | WeeklySummary.AsWrittenWeekTotalIsSeven | WeeklySummary.ByDayIdleWeek |

=== FILE: home.dfy ===
/** The state transitions of the home page, `client/src/pages/home.tsx`: the patches
    its meal and workout check-boxes send, the week navigation, and the day's
    calorie total. */
module Home {
  import opened Wrappers
  import opened Schema
  import opened Seqs
  import opened Storage
  import opened Routes
  import Utils

  // ----- meal and workout check-boxes -----

  /** The meal ids of a loaded record: an empty column reads as `[]`, a list column as
      its ids, and `None` where `JSON.parse` would throw. */
  function MealList(p: Progress): (r: Option<seq<int>>)
    ensures p.mealCompletions == Blank ==> r == Some([])
    ensures p.mealCompletions.Json? ==> r == Some(p.mealCompletions.ids)
    ensures r.None? <==> p.mealCompletions.Garbled?
  {
    match p.mealCompletions
    case Blank => Some([])
    case Json(ids) => Some(ids)
    case Garbled => None
  }

  /** The list after ticking (`completed`) or unticking meal `mealId`. Unticking keeps
      the other ids in order and with their multiplicity: it drops a one-element list
      exactly when that element is `mealId`, and distributes over concatenation
      (`UntickDistributes`). */
  function Toggled(ids: seq<int>, mealId: int, completed: bool): (r: seq<int>)
    ensures completed ==> |r| == |ids| + 1 && r[..|ids|] == ids && r[|ids|] == mealId
    ensures !completed ==> mealId !in r && |r| <= |ids|
    ensures !completed ==> forall x :: x != mealId ==> (x in r <==> x in ids)
    ensures !completed && |ids| == 0 ==> r == []
    ensures !completed && |ids| == 1 ==> r == if ids[0] == mealId then [] else ids
  {
    if completed then ids + [mealId]
    else Filter(ids, (id: int) => id != mealId)
  }

  /** `handleMealComplete`: nothing is sent while no record is loaded (or when its list
      does not parse, where `JSON.parse` throws); otherwise a patch that carries only
      the new meal list. */
  function ToggleMeal(progress: Option<Progress>, mealId: int, completed: bool): (r: Option<ProgressPatch>)
    ensures progress.None? ==> r.None?
    ensures progress.Some? ==> (r.Some? <==> !progress.value.mealCompletions.Garbled?)
    ensures r.Some? ==> r.value.mealCompletions.Some? && r.value.(mealCompletions := None) == EmptyPatch
    ensures r.Some? ==>
              r.value.mealCompletions.value == Json(Toggled(MealList(progress.value).value, mealId, completed))
  {
    match progress
    case None => None
    case Some(p) =>
      match MealList(p)
      case None => None
      case Some(ids) => Some(EmptyPatch.(mealCompletions := Some(Json(Toggled(ids, mealId, completed)))))
  }

  /** Unticking a concatenation unticks each part and keeps them in order. */
  lemma {:induction false} UntickDistributes(a: seq<int>, b: seq<int>, mealId: int)
    ensures Toggled(a + b, mealId, false) == Toggled(a, mealId, false) + Toggled(b, mealId, false)
  {
    FilterAppend(a, b, (id: int) => id != mealId);
  }

  /** Ticking a meal that was not ticked and then unticking it restores the list. */
  lemma {:induction false} TickUntickRestores(ids: seq<int>, mealId: int)
    requires mealId !in ids
    ensures Toggled(Toggled(ids, mealId, true), mealId, false) == ids
  {
    var p := (id: int) => id != mealId;
    FilterAppend(ids, [mealId], p);
    FilterAllOrNone(ids, p);
    FilterAllOrNone([mealId], p);
  }

  /** Unticking twice is unticking once. */
  lemma {:induction false} UntickIdempotent(ids: seq<int>, mealId: int)
    ensures Toggled(Toggled(ids, mealId, false), mealId, false) == Toggled(ids, mealId, false)
  {
    var once := Toggled(ids, mealId, false);
    FilterAllOrNone(once, (id: int) => id != mealId);
  }

  /** Ticking an already ticked meal adds a second copy of its id. */
  lemma TickTwiceDuplicates(ids: seq<int>, mealId: int)
    ensures var twice := Toggled(Toggled(ids, mealId, true), mealId, true);
            |twice| == |ids| + 2 && twice[|ids|] == mealId && twice[|ids| + 1] == mealId
  {
  }

  /** `handleWorkoutComplete`: a patch that carries only the workout flag. */
  function ToggleWorkout(completed: bool): (r: ProgressPatch)
    ensures r.workoutCompleted == Some(completed)
    ensures r.(workoutCompleted := None) == EmptyPatch
  {
    EmptyPatch.(workoutCompleted := Some(completed))
  }

  /** Posting a check-box patch for a day that has a record changes exactly one column
      of that record: the meal list or the workout flag. */
  lemma {:induction false} PostedTogglesChangeOneColumn(
    s: Store, dayNumber: int, mealId: int, completed: bool, clock: Clock)
    requires s.Valid()
    requires GetProgressByUserAndDay(s, UserId, dayNumber).Some?
    ensures var prior := GetProgressByUserAndDay(s, UserId, dayNumber).value;
            ToggleMeal(Some(prior), mealId, completed).Some? ==>
              var patch := ToggleMeal(Some(prior), mealId, completed).value;
              PostProgress(Some(dayNumber), Some(patch), s, clock).out.body.progress
                == prior.(mealCompletions := patch.mealCompletions.value)
    ensures var prior := GetProgressByUserAndDay(s, UserId, dayNumber).value;
            PostProgress(Some(dayNumber), Some(ToggleWorkout(completed)), s, clock).out.body.progress
              == prior.(workoutCompleted := completed)
  {
    var prior := GetProgressByUserAndDay(s, UserId, dayNumber).value;
    var w := ToggleWorkout(completed);
    assert w.userId.None? && w.date.None? && w.mealCompletions.None? && w.exerciseCompletions.None?;
    assert w.dayNumber.None? && w.notes.None?;
    match ToggleMeal(Some(prior), mealId, completed)
    case None =>
    case Some(patch) =>
      assert patch.userId.None? && patch.date.None? && patch.workoutCompleted.None?;
      assert patch.dayNumber.None? && patch.notes.None? && patch.exerciseCompletions.None?;
  }

  // ----- week navigation -----

  /** The page's position: the week shown and the day selected. */
  datatype View = View(week: int, day: int)

  /** `handlePrevWeek`: from week w > 1 to week w-1 and its first day; at week 1 nothing changes. */
  function PrevWeek(v: View): (r: View)
    ensures v.week > 1 ==> r.week == v.week - 1
    ensures v.week > 1 ==> Utils.WeekNumber(r.day) == r.week && Utils.DayOfWeek(r.day) == 0
    ensures v.week <= 1 ==> r == v
    ensures 1 <= v.week <= 6 ==> 1 <= r.week <= 6
    ensures 2 <= v.week <= 7 ==> 1 <= r.day <= 36
  {
    if v.week > 1 then
      WeekStartCoordinates(v.week - 1);
      View(v.week - 1, (v.week - 2) * 7 + 1)
    else v
  }

  /** `handleNextWeek`: from week w < 6 to week w+1 and its first day; at week 6 nothing changes. */
  function NextWeek(v: View): (r: View)
    ensures v.week < 6 ==> r.week == v.week + 1
    ensures v.week < 6 ==> Utils.WeekNumber(r.day) == r.week && Utils.DayOfWeek(r.day) == 0
    ensures v.week >= 6 ==> r == v
    ensures 1 <= v.week <= 6 ==> 1 <= r.week <= 6
    ensures r != v && v.week >= 0 ==> 1 <= r.day <= 40
  {
    if v.week < 6 then
      WeekStartCoordinates(v.week + 1);
      View(v.week + 1, v.week * 7 + 1)
    else v
  }

  /** The first day of any week lies in that week and is a Monday. */
  lemma {:induction false} WeekStartCoordinates(w: int)
    ensures Utils.WeekNumber(WeekStart(w)) == w
    ensures Utils.DayOfWeek(WeekStart(w)) == 0
  {
    var k := w - 1;
    assert WeekStart(w) + 6 == 7 * w;
    assert WeekStart(w) - 1 == 7 * k;
    if k < 0 {
      assert -(7 * k) == 7 * (-k);
      assert (7 * (-k)) % 7 == 0;
    } else {
      assert (7 * k) % 7 == 0;
    }
  }

  /** Stepping back and then forward (or forward and then back) returns to the same
      week, with its first day selected. */
  lemma NavigationRoundTrip(v: View)
    ensures 1 < v.week <= 6 ==> NextWeek(PrevWeek(v)) == View(v.week, WeekStart(v.week))
    ensures 1 <= v.week < 6 ==> PrevWeek(NextWeek(v)) == View(v.week, WeekStart(v.week))
  {
  }

  // ----- calorie total -----

  /** `reduce((acc, meal) => acc + meal.calories, acc)`, from the front. */
  function SumFrom(acc: int, meals: seq<Meal>): int
    decreases |meals|
  {
    if |meals| == 0 then acc else SumFrom(acc + meals[0].calories, meals[1..])
  }

  /** The front-to-back fold equals the starting value plus the plan's calorie total. */
  lemma {:induction false} SumFromTotal(acc: int, meals: seq<Meal>)
    ensures SumFrom(acc, meals) == acc + Utils.TotalCalories(meals)
    decreases |meals|
  {
    if |meals| > 0 {
      SumFromTotal(acc + meals[0].calories, meals[1..]);
      assert meals == [meals[0]] + meals[1..];
      Utils.TotalCaloriesAppend([meals[0]], meals[1..]);
      assert [meals[0]][..0] == [];
    }
  }

  /** The day's calorie badge: the sum of the loaded meals' calories, or 0 when none are
      loaded (the `|| 0` also turns a zero sum into 0, which changes nothing). */
  function DayCalories(meals: Option<seq<Meal>>): (r: int)
    ensures meals.None? ==> r == 0
    ensures meals.Some? ==> r == Utils.TotalCalories(meals.value)
  {
    match meals
    case None => 0
    case Some(ms) =>
      SumFromTotal(0, ms);
      var total := SumFrom(0, ms);
      if total == 0 then 0 else total
  }
}

=== FILE: meal_plan_data.dfy ===
/** The day-number/date tables and the "where are we now" functions of
    `client/src/data/meal-plan-data.ts`. Instants are milliseconds since the Unix
    epoch, as `Date.getTime()` returns them. */
module MealPlanData {
  import opened Schema
  import Utils

  const MsPerDay: int := 1000 * 60 * 60 * 24

  /** The number of days in the plan. */
  const PlanLength: int := 40

  /** `new Date("2023-03-31")`: midnight UTC of plan day 1. */
  const StartMs: int := Utils.PlanStartDay * MsPerDay

  /** 2023-05-09, the hard-coded end date, as days since 1970-01-01. */
  const EndDay: Day := 19486

  /** `new Date("2023-05-09")`: midnight UTC of the end date. */
  const EndMs: int := EndDay * MsPerDay

  /** The hard-coded end date is exactly the date of the last plan day. */
  lemma EndDateIsLastPlanDay()
    ensures EndDay == Utils.DateOfDay(PlanLength)
    ensures EndMs - StartMs == (PlanLength - 1) * MsPerDay
  {
  }

  /** A plan day and its date (the calendar weekday name is not modelled). */
  datatype DayMapping = DayMapping(dayNumber: int, date: Day)

  /** `generateDayMappings`: one entry per plan day, in order, each dated by `getDateFromDayNumber`. */
  method GenerateDayMappings() returns (r: seq<DayMapping>)
    ensures |r| == PlanLength
    ensures forall i :: 0 <= i < |r| ==> r[i].dayNumber == i + 1
    ensures forall i :: 0 <= i < |r| ==> r[i].date == Utils.DateOfDay(r[i].dayNumber)
  {
    r := [];
    var dayNumber := 1;
    while dayNumber <= PlanLength
      invariant 1 <= dayNumber <= PlanLength + 1
      invariant |r| == dayNumber - 1
      invariant forall i :: 0 <= i < |r| ==> r[i].dayNumber == i + 1
      invariant forall i :: 0 <= i < |r| ==> r[i].date == Utils.DateOfDay(r[i].dayNumber)
    {
      var dayDate := Utils.PlanStartDay + dayNumber - 1;
      r := r + [DayMapping(dayNumber, dayDate)];
      dayNumber := dayNumber + 1;
    }
  }

  /** Where `Array.prototype.slice` starts or stops for index argument `i`: negative
      indices count from the end, and everything is clamped to `0..len`. */
  function SliceIndex(i: int, len: nat): (r: nat)
    ensures r <= len
    ensures 0 <= i <= len ==> r == i
    ensures i > len ==> r == len
    ensures i < 0 && 0 <= len + i ==> r == len + i
    ensures len + i < 0 ==> r == 0
  {
    if i < 0 then (if len + i < 0 then 0 else len + i)
    else if i < len then i
    else len
  }

  /** `xs.slice(start, end)`. */
  function JsSlice<T>(xs: seq<T>, start: int, end: int): (r: seq<T>)
    ensures |r| <= |xs|
    ensures SliceIndex(start, |xs|) < SliceIndex(end, |xs|) ==>
              r == xs[SliceIndex(start, |xs|)..SliceIndex(end, |xs|)]
    ensures SliceIndex(end, |xs|) <= SliceIndex(start, |xs|) ==> r == []
  {
    var from := SliceIndex(start, |xs|);
    var to := SliceIndex(end, |xs|);
    if from < to then xs[from..to] else []
  }

  /** `getWeekDays`: the plan days of week `weekNumber`, i.e. days (w-1)*7+1 up to
      min(7w, 40); weeks 1-5 have seven days, week 6 has five, later weeks none. */
  method GetWeekDays(weekNumber: int) returns (r: seq<DayMapping>)
    ensures weekNumber >= 1 ==> forall i :: 0 <= i < |r| ==>
              r[i].dayNumber == (weekNumber - 1) * 7 + 1 + i && r[i].date == Utils.DateOfDay(r[i].dayNumber)
    ensures 1 <= weekNumber <= 5 ==> |r| == 7
    ensures weekNumber == 6 ==> |r| == 5
    ensures weekNumber == 0 || weekNumber >= 7 ==> r == []
    ensures forall i :: 0 <= i < |r| ==> 1 <= r[i].dayNumber <= PlanLength
  {
    var mappings := GenerateDayMappings();
    var startDay := (weekNumber - 1) * 7;
    r := JsSlice(mappings, startDay, startDay + 7);
    assert forall i :: 0 <= i < |r| ==> r[i] in mappings;
  }

  /** `getCurrentDayNumber`: 1 before the start, 40 after the end date, otherwise the
      number of whole days elapsed since the start plus one, capped at 40. */
  function CurrentDayNumber(nowMs: int): (r: int)
    ensures 1 <= r <= PlanLength
    ensures nowMs < StartMs ==> r == 1
    ensures nowMs > EndMs ==> r == PlanLength
    ensures StartMs <= nowMs <= EndMs ==> (r - 1) * MsPerDay <= nowMs - StartMs < r * MsPerDay
  {
    if nowMs < StartMs then 1
    else if nowMs > EndMs then PlanLength
    else
      var daysSinceStart := (nowMs - StartMs) / MsPerDay + 1;
      if daysSinceStart < PlanLength then daysSinceStart else PlanLength
  }

  /** `getCurrentWeek`: 1 before the start, 6 after the end date, otherwise the number of
      whole weeks elapsed since the start plus one, capped at 6. */
  function CurrentWeek(nowMs: int): (r: int)
    ensures 1 <= r <= 6
    ensures nowMs < StartMs ==> r == 1
    ensures nowMs > EndMs ==> r == 6
    ensures StartMs <= nowMs <= EndMs ==> (r - 1) * 7 * MsPerDay <= nowMs - StartMs < r * 7 * MsPerDay
  {
    if nowMs < StartMs then 1
    else if nowMs > EndMs then 6
    else
      var daysSinceStart := (nowMs - StartMs) / MsPerDay;
      var currentWeek := daysSinceStart / 7 + 1;
      if currentWeek < 6 then currentWeek else 6
  }

  /** At every instant the current week is the week of the current day. */
  lemma {:induction false} CurrentWeekOfCurrentDay(nowMs: int)
    ensures CurrentWeek(nowMs) == Utils.WeekNumber(CurrentDayNumber(nowMs))
  {
    if StartMs <= nowMs <= EndMs {
      var days := (nowMs - StartMs) / MsPerDay;
      assert 0 <= days <= PlanLength - 1 by {
        EndDateIsLastPlanDay();
      }
      assert CurrentDayNumber(nowMs) == days + 1;
      assert CurrentWeek(nowMs) == days / 7 + 1;
      assert Utils.WeekNumber(days + 1) == (days + 7) / 7;
    }
  }

  /** Time only moves the current day forward. */
  lemma {:induction false} CurrentDayNumberMonotonic(t1: int, t2: int)
    requires t1 <= t2
    ensures CurrentDayNumber(t1) <= CurrentDayNumber(t2)
  {
  }
}

=== FILE: numbers.dfy ===
/** JavaScript numbers as the client's percentage arithmetic produces them, and the
    facts about real division that arithmetic relies on. */
module Numbers {

  /** A JavaScript number: a finite value, `NaN`, or one of the two infinities
      (what a non-zero number divided by zero gives). */
  datatype Number = Finite(x: real) | NaN | Infinity | NegInfinity

  /** `a / b` in JavaScript. */
  function Divide(a: real, b: real): (r: Number)
    ensures r.Finite? <==> b != 0.0
    ensures r.NaN? <==> a == 0.0 && b == 0.0
    ensures r.Infinity? <==> a > 0.0 && b == 0.0
    ensures r.NegInfinity? <==> a < 0.0 && b == 0.0
    ensures r.Finite? ==> r.x * b == a
  {
    if b != 0.0 then Finite(a / b)
    else if a == 0.0 then NaN
    else if a > 0.0 then Infinity
    else NegInfinity
  }

  /** A quotient of a value within `0..m` by a positive `m` lies within `0..1`. */
  lemma {:induction false} QuotientWithinUnit(a: real, m: real)
    requires m > 0.0 && 0.0 <= a <= m
    ensures 0.0 <= a / m <= 1.0
  {
    assert (a / m) * m == a;
  }

  /** A non-zero number divided by itself is 1. */
  lemma {:induction false} QuotientSelf(m: real)
    requires m != 0.0
    ensures m / m == 1.0
  {
  }

  /** Dividing by the same positive number keeps the order. */
  lemma {:induction false} QuotientMonotonic(a: real, b: real, d: real)
    requires d > 0.0 && a <= b
    ensures a / d <= b / d
  {
    var qa, qb := a / d, b / d;
    assert qa * d == a && qb * d == b;
    assert (qb - qa) * d == b - a;
  }

  /** A quotient `p` with `p * t == c * 100` for `c >= t > 0` is at least 100. */
  lemma {:induction false} PercentageAtLeastHundred(p: real, c: real, t: real)
    requires t > 0.0 && c >= t && p * t == c * 100.0
    ensures p >= 100.0
  {
    assert (p - 100.0) * t == (c - t) * 100.0;
  }
}

=== FILE: progress_bar.dfy ===
/** The fill width of the progress bar in `client/src/components/ui/progress.tsx`:
    `value` clamped to `0..max` and scaled to a percentage of `max`. */
module ProgressBar {
  import opened Wrappers
  import opened Numbers
  import WeeklySummary

  /** The default of the `max` prop. */
  const DefaultMax: real := 100.0

  /** `Math.max(0, v)` and `Math.min(v, max)` on finite numbers. */
  function AtLeastZero(v: real): real {
    if v < 0.0 then 0.0 else v
  }

  function AtMost(v: real, max: real): real {
    if v < max then v else max
  }

  /** `Math.min(Math.max(0, value), max)` for a value that is not `NaN`: an infinite
      value clamps to `max`, a negative infinite one to `Math.min(0, max)`. */
  function Clamped(value: Number, max: real): (r: real)
    requires !value.NaN?
  {
    match value
    case Finite(v) => AtMost(AtLeastZero(v), max)
    case Infinity => max
    case NegInfinity => AtMost(0.0, max)
  }

  /** The value lies at or below zero. */
  predicate AtOrBelowZero(value: Number) {
    value.NegInfinity? || (value.Finite? && value.x <= 0.0)
  }

  /** The value lies at or above `max`. */
  predicate AtOrAboveMax(value: Number, max: real) {
    value.Infinity? || (value.Finite? && value.x >= max)
  }

  /** `value != null ? Math.min(Math.max(0, value), max) / max * 100 : 0`, where a
      missing value (`null` or `undefined`) is `None`. */
  function Width(value: Option<Number>, max: real): (r: Number)
    ensures value.None? ==> r == Finite(0.0)
    ensures value == Some(NaN) ==> r == NaN
    ensures value.Some? && !value.value.NaN? && max == 0.0 ==> r == NaN
    ensures value.Some? && !value.value.NaN? && max > 0.0 ==> r.Finite? && 0.0 <= r.x <= 100.0
    ensures value.Some? && value.value.Finite? && max > 0.0 && 0.0 <= value.value.x <= max ==>
              r.x * max == value.value.x * 100.0
    ensures value.Some? && AtOrBelowZero(value.value) && max > 0.0 ==> r == Finite(0.0)
    ensures value.Some? && AtOrAboveMax(value.value, max) && max > 0.0 ==> r == Finite(100.0)
    ensures value.Some? && !value.value.NaN? && max < 0.0 ==> r == Finite(100.0)
  {
    match value
    case None => Finite(0.0)
    case Some(NaN) => NaN
    case Some(v) =>
      if max == 0.0 then NaN
      else
        var clamped := Clamped(v, max);
        assert max > 0.0 ==> 0.0 <= clamped / max <= 1.0 by {
          if max > 0.0 {
            QuotientWithinUnit(clamped, max);
          }
        }
        assert (clamped / max) * max == clamped;
        assert (clamped / max * 100.0) * max == ((clamped / max) * max) * 100.0;
        assert AtOrAboveMax(v, max) || max < 0.0 ==> clamped / max == 1.0 by {
          if AtOrAboveMax(v, max) || max < 0.0 {
            QuotientSelf(max);
          }
        }
        Finite(clamped / max * 100.0)
  }

  /** A larger value never gives a narrower bar. */
  lemma {:induction false} WidthMonotonic(v1: real, v2: real, max: real)
    requires max > 0.0 && v1 <= v2
    ensures Width(Some(Finite(v1)), max).x <= Width(Some(Finite(v2)), max).x
  {
    QuotientMonotonic(Clamped(Finite(v1), max), Clamped(Finite(v2), max), max);
  }

  /** With the default `max` of 100 a value already in `0..100` is drawn as it is. */
  lemma DefaultMaxKeepsPercentages(v: real)
    requires 0.0 <= v <= DefaultMax
    ensures Width(Some(Finite(v)), DefaultMax) == Finite(v)
  {
  }

  /** A summary bar, fed `(completed / total) * 100`, shows that percentage when the
      tally is within its total, is full when the tally reaches or exceeds it (as the
      meal tally can) or when a non-zero tally has a zero total, and is `NaN` for 0/0. */
  lemma {:induction false} SummaryBars(c: WeeklySummary.Completion)
    ensures var p := WeeklySummary.Percentage(c);
            c.total > 0 && 0 <= c.completed <= c.total ==> Width(Some(p), DefaultMax) == p
    ensures c.total > 0 && c.completed >= c.total ==>
              Width(Some(WeeklySummary.Percentage(c)), DefaultMax) == Finite(100.0)
    ensures c.total == 0 && c.completed > 0 ==>
              Width(Some(WeeklySummary.Percentage(c)), DefaultMax) == Finite(100.0)
    ensures c.total == 0 && c.completed == 0 ==> Width(Some(WeeklySummary.Percentage(c)), DefaultMax) == NaN
  {
    var p := WeeklySummary.Percentage(c);
    if c.total > 0 && c.completed >= c.total {
      PercentageAtLeastHundred(p.x, c.completed as real, c.total as real);
    }
  }
}

=== FILE: routes.dfy ===
/** The request handlers of `server/routes.ts`, as functions from the parsed request
    and the store to the response and the new store. Path parameters arrive already
    parsed: `None` stands for a `parseInt` result of `NaN`. */
module Routes {
  import opened Wrappers
  import opened Seqs
  import opened Schema
  import opened Storage
  import Text

  /** Every handler acts for this one hard-coded user. */
  const UserId: int := 1

  datatype Status = Ok | BadRequest | NotFound | InternalServerError

  datatype Body =
    | Meals(meals: seq<Meal>)
    | WorkoutWithExercises(workout: Workout, exercises: seq<Exercise>)
    | OneProgress(progress: Progress)
    | ProgressList(progresses: seq<Progress>)
    | Message(text: string)

  datatype Response = Response(status: Status, body: Body)

  /** What a request reads from the clock: today's date (`toISOString` up to the 'T')
      and the current instant (`new Date()` for `createdAt`). */
  datatype Clock = Clock(today: Day, now: Timestamp)

  function Fail(status: Status, message: string): Response {
    Response(status, Message(message))
  }

  const DayRequired: string := "Day parameter is required"
  const WorkoutMissing: string := "Workout not found"
  const InvalidDayNumber: string := "Invalid day number"
  const InvalidData: string := "Invalid data"
  const InternalError: string := "Internal server error"
  const NotesNotString: string := "Notes must be a string"
  const InvalidWeekNumber: string := "Invalid week number"

  // ----- meals and workouts -----

  /** GET /api/meals/:day — the stored meals of the lower-cased weekday; an unknown
      day is an empty list, not an error. */
  function GetMeals(s: Store, day: string): (r: Response)
    ensures r.status == Ok <==> day != ""
    ensures r.status == Ok ==> r.body.Meals?
    ensures r.status == Ok ==> forall i :: 0 <= i < |r.body.meals| ==>
              r.body.meals[i] in s.meals && r.body.meals[i].day == Text.Lower(day)
    ensures r.status == Ok ==> forall i :: 0 <= i < |s.meals| && s.meals[i].day == Text.Lower(day) ==>
              s.meals[i] in r.body.meals
    ensures r.status != Ok ==> r == Fail(BadRequest, DayRequired)
  {
    if day == "" then Fail(BadRequest, DayRequired)
    else Response(Ok, Meals(GetMealsByDay(s, Text.Lower(day))))
  }

  /** The meal and workout lookups ignore the letter case of the day. */
  lemma CaseInsensitive(s: Store, d1: string, d2: string)
    requires Text.Lower(d1) == Text.Lower(d2)
    ensures GetMeals(s, d1) == GetMeals(s, d2)
    ensures GetWorkout(s, d1) == GetWorkout(s, d2)
  {
    assert d1 == "" <==> d2 == "";
  }

  /** The hard-coded Friday exercise list, attached to workout `workoutId`. */
  function FridayExercises(workoutId: int): (r: seq<Exercise>)
    ensures |r| == 2 && r[0].id == 100 && r[1].id == 101
    ensures forall i :: 0 <= i < |r| ==> r[i].workoutId == workoutId
  {
    [ Exercise(100, workoutId, "Steady-State Run (Moderate Pace)", "5-6 km"),
      Exercise(101, workoutId, "HIIT Sprints", "10 rounds: 30 sec sprint / 1 min walk") ]
  }

  /** GET /api/workouts/:day — 404 when no workout has the lower-cased weekday; for
      Friday, in any letter case, the fixed two-exercise list whatever is stored;
      otherwise the stored exercises of the workout found. */
  function GetWorkout(s: Store, day: string): (r: Response)
    ensures day == "" ==> r == Fail(BadRequest, DayRequired)
    ensures day != "" && GetWorkoutByDay(s, Text.Lower(day)).None? ==> r == Fail(NotFound, WorkoutMissing)
    ensures r.status == Ok <==> day != "" && GetWorkoutByDay(s, Text.Lower(day)).Some?
    ensures r.status == Ok ==> r.body.WorkoutWithExercises?
                               && Some(r.body.workout) == GetWorkoutByDay(s, Text.Lower(day))
    ensures r.status == Ok && Text.Lower(day) == "friday" ==>
              r.body.exercises == FridayExercises(r.body.workout.id)
    ensures r.status == Ok && Text.Lower(day) != "friday" ==>
              r.body.exercises == GetExercisesByWorkoutId(s, r.body.workout.id)
  {
    if day == "" then Fail(BadRequest, DayRequired)
    else
      match GetWorkoutByDay(s, Text.Lower(day))
      case None => Fail(NotFound, WorkoutMissing)
      case Some(workout) =>
        if Text.Lower(day) == "friday" then
          Response(Ok, WorkoutWithExercises(workout, FridayExercises(workout.id)))
        else
          Response(Ok, WorkoutWithExercises(workout, GetExercisesByWorkoutId(s, workout.id)))
  }

  // ----- progress -----

  /** The record a read creates for a day with none: "[]", false and "" (which
      `createProgress` turns into null). */
  function BlankRecord(dayNumber: int, today: Day): InsertProgress {
    InsertProgress(UserId, dayNumber, today, EmptyList, Some(false), None, Some(""))
  }

  /** Look the day up for the user; create `created` only when the lookup fails. */
  function GetOrCreate(s: Store, dayNumber: int, created: InsertProgress, now: Timestamp): (r: Step<Progress>)
    requires created.userId == UserId && created.dayNumber == dayNumber
    ensures IsFor(r.out, UserId, dayNumber)
    ensures GetProgressByUserAndDay(r.store, UserId, dayNumber) == Some(r.out)
    ensures GetProgressByUserAndDay(s, UserId, dayNumber).Some? ==>
              r.store == s && Some(r.out) == GetProgressByUserAndDay(s, UserId, dayNumber)
    ensures GetProgressByUserAndDay(s, UserId, dayNumber).None? ==> r == CreateProgress(s, created, now)
    ensures Extends(s, r.store)
    ensures forall j :: |s.progresses| <= j < |r.store.progresses| ==> r.store.progresses[j] == r.out
    ensures UniqueProgress(s) ==> UniqueProgress(r.store)
    ensures s.Valid() ==> r.store.Valid()
  {
    CreateProgressExtends(s, created, now);
    match GetProgressByUserAndDay(s, UserId, dayNumber)
    case Some(p) => Step(s, p)
    case None =>
      var c := CreateProgress(s, created, now);
      assert c.store.progresses == s.progresses + [c.out];
      assert forall j :: 0 <= j < |s.progresses| ==> c.store.progresses[j] == s.progresses[j];
      Seqs.FindAt(c.store.progresses, (p: Progress) => IsFor(p, UserId, dayNumber), |s.progresses|);
      c
  }

  /** GET /api/progress/:dayNumber — 400 for NaN, otherwise get-or-create. */
  function GetProgress(dayNumber: Option<int>, s: Store, clock: Clock): (r: Step<Response>)
    ensures dayNumber.None? ==> r == Step(s, Fail(BadRequest, InvalidDayNumber))
    ensures dayNumber.Some? ==> r.out.status == Ok && r.out.body.OneProgress?
    ensures dayNumber.Some? ==> var d := dayNumber.value;
      && GetProgressByUserAndDay(r.store, UserId, d) == Some(r.out.body.progress)
      && (GetProgressByUserAndDay(s, UserId, d).Some? ==> r.store == s)
      && (GetProgressByUserAndDay(s, UserId, d).None? ==>
            && r.store.progresses == s.progresses + [r.out.body.progress]
            && r.out.body.progress.id == s.progressId
            && r.out.body.progress.date == clock.today
            && r.out.body.progress.mealCompletions == EmptyList
            && !r.out.body.progress.workoutCompleted
            && r.out.body.progress.exerciseCompletions == EmptyList
            && r.out.body.progress.notes.None?)
    ensures Extends(s, r.store)
    ensures UniqueProgress(s) ==> UniqueProgress(r.store)
    ensures s.Valid() ==> r.store.Valid()
  {
    match dayNumber
    case None => Step(s, Fail(BadRequest, InvalidDayNumber))
    case Some(d) =>
      var g := GetOrCreate(s, d, BlankRecord(d, clock.today), clock.now);
      Step(g.store, Response(Ok, OneProgress(g.out)))
  }

  /** A read-through create happens once: a second GET for the same day returns the
      same record and leaves the store as the first GET left it. */
  lemma GetProgressIdempotent(dayNumber: int, s: Store, c1: Clock, c2: Clock)
    ensures var first := GetProgress(Some(dayNumber), s, c1);
      GetProgress(Some(dayNumber), first.store, c2) == first
  {
  }

  /** `data.mealCompletions || JSON.stringify([])` */
  function ListOrEmpty(t: Option<IdListText>): (r: IdListText)
    ensures r != Blank
    ensures t.Some? && t.value != Blank ==> r == t.value
  {
    match t
    case Some(v) => if v == Blank then EmptyList else v
    case None => EmptyList
  }

  /** `data.notes || ""` */
  function NotesOrEmpty(n: Option<Option<string>>): (r: string)
    ensures n.Some? && n.value.Some? ==> r == n.value.value
    ensures n.None? || n.value.None? ==> r == ""
  {
    match n
    case Some(Some(text)) => text
    case _ => ""
  }

  /** POST /api/progress/:dayNumber — 400 for NaN or a body the partial schema rejects;
      an existing record is merged with exactly the parsed patch; a missing one is
      created from the patch's meal list, workout flag and notes (or their defaults),
      ignoring its exercise list. `body` is `None` when the schema rejects the body. */
  function PostProgress(dayNumber: Option<int>, body: Option<ProgressPatch>, s: Store, clock: Clock)
    : (r: Step<Response>)
    ensures dayNumber.None? ==> r == Step(s, Fail(BadRequest, InvalidDayNumber))
    ensures dayNumber.Some? && body.None? ==> r == Step(s, Fail(BadRequest, InvalidData))
    ensures r.out.status != InternalServerError
    ensures dayNumber.Some? && body.Some? ==> r.out.status == Ok && r.out.body.OneProgress?
    ensures SameCatalog(s, r.store)
    ensures dayNumber.Some? && body.Some? && GetProgressByUserAndDay(s, UserId, dayNumber.value).Some? ==>
              var prior := GetProgressByUserAndDay(s, UserId, dayNumber.value).value;
              exists i :: 0 <= i < |s.progresses| && s.progresses[i].id == prior.id
                          && r.out.body.progress == Merge(s.progresses[i], body.value)
                          && r.store == s.(progresses := s.progresses[i := r.out.body.progress])
    ensures s.Valid() && dayNumber.Some? && body.Some? && GetProgressByUserAndDay(s, UserId, dayNumber.value).Some? ==>
              var prior := GetProgressByUserAndDay(s, UserId, dayNumber.value).value;
              && r.out.body.progress == Merge(prior, body.value)
              && exists i :: 0 <= i < |s.progresses| && s.progresses[i] == prior
                             && r.store == s.(progresses := s.progresses[i := r.out.body.progress])
    ensures dayNumber.Some? && body.Some? && GetProgressByUserAndDay(s, UserId, dayNumber.value).None? ==>
              var p := r.out.body.progress;
              && r.store == s.(progresses := s.progresses + [p], progressId := s.progressId + 1)
              && p.id == s.progressId && IsFor(p, UserId, dayNumber.value) && p.date == clock.today
              && p.mealCompletions == ListOrEmpty(body.value.mealCompletions)
              && p.workoutCompleted == (body.value.workoutCompleted == Some(true))
              && p.exerciseCompletions == EmptyList
              && (p.notes.Some? <==> NotesOrEmpty(body.value.notes) != "")
              && (p.notes.Some? ==> p.notes.value == NotesOrEmpty(body.value.notes))
    ensures s.Valid() ==> r.store.Valid()
  {
    match dayNumber
    case None => Step(s, Fail(BadRequest, InvalidDayNumber))
    case Some(d) =>
      match body
      case None => Step(s, Fail(BadRequest, InvalidData))
      case Some(data) =>
        match GetProgressByUserAndDay(s, UserId, d)
        case None =>
          var created := InsertProgress(
            UserId, d, clock.today,
            ListOrEmpty(data.mealCompletions),
            Some(data.workoutCompleted.GetOr(false)),
            None,
            Some(NotesOrEmpty(data.notes)));
          var c := CreateProgress(s, created, clock.now);
          Step(c.store, Response(Ok, OneProgress(c.out)))
        case Some(existing) =>
          var u := UpdateProgress(s, existing.id, data);
          match u.out
          case Success(updated) => Step(u.store, Response(Ok, OneProgress(updated)))
          case Failure(_) => Step(s, Fail(InternalServerError, InternalError))
  }

  /** A POST whose patch leaves `userId` and `dayNumber` alone keeps at most one record
      per (user, day). */
  lemma PostProgressKeepsUnique(dayNumber: Option<int>, body: Option<ProgressPatch>, s: Store, clock: Clock)
    requires UniqueProgress(s)
    requires body.Some? ==> body.value.userId.None? && body.value.dayNumber.None?
    ensures UniqueProgress(PostProgress(dayNumber, body, s, clock).store)
  {
  }

  /** The schema lets a patch carry `dayNumber`, and such a patch can leave two records
      for one day: a store with days 1 and 2, then POST /api/progress/1 with dayNumber 2. */
  lemma PatchCarryingDayNumberBreaksUniqueness()
    ensures var p1 := Progress(1, UserId, 1, 0, EmptyList, false, EmptyList, None, 0);
            var p2 := Progress(2, UserId, 2, 0, EmptyList, false, EmptyList, None, 0);
            var s := Store([], [], [], [p1, p2], 1, 1, 1, 3);
            var patch := EmptyPatch.(dayNumber := Some(2));
            && s.Valid() && UniqueProgress(s)
            && !UniqueProgress(PostProgress(Some(1), Some(patch), s, Clock(0, 0)).store)
  {
    var p1 := Progress(1, UserId, 1, 0, EmptyList, false, EmptyList, None, 0);
    var p2 := Progress(2, UserId, 2, 0, EmptyList, false, EmptyList, None, 0);
    var s := Store([], [], [], [p1, p2], 1, 1, 1, 3);
    var patch := EmptyPatch.(dayNumber := Some(2));
    FindAt(s.progresses, (p: Progress) => IsFor(p, UserId, 1), 0);
    FindAt(s.progresses, (p: Progress) => p.id == 1, 0);
    var t := PostProgress(Some(1), Some(patch), s, Clock(0, 0)).store;
    assert t.progresses[0].dayNumber == 2 && t.progresses[1].dayNumber == 2;
  }

  /** POST /api/notes/:dayNumber — 400 for NaN or a non-string `notes` (`None`); an
      existing record gets exactly its `notes` replaced (an empty string included);
      a missing record is created with the notes, where "" is stored as null. */
  function PostNotes(dayNumber: Option<int>, notes: Option<string>, s: Store, clock: Clock)
    : (r: Step<Response>)
    ensures dayNumber.None? ==> r == Step(s, Fail(BadRequest, InvalidDayNumber))
    ensures dayNumber.Some? && notes.None? ==> r == Step(s, Fail(BadRequest, NotesNotString))
    ensures dayNumber.Some? && notes.Some? ==> r.out.status == Ok && r.out.body.OneProgress?
    ensures SameCatalog(s, r.store)
    ensures dayNumber.Some? && notes.Some? && GetProgressByUserAndDay(s, UserId, dayNumber.value).Some? ==>
              var prior := GetProgressByUserAndDay(s, UserId, dayNumber.value).value;
              exists i :: 0 <= i < |s.progresses| && s.progresses[i].id == prior.id
                          && r.out.body.progress == s.progresses[i].(notes := notes)
                          && r.store == s.(progresses := s.progresses[i := r.out.body.progress])
    ensures s.Valid() && dayNumber.Some? && notes.Some? && GetProgressByUserAndDay(s, UserId, dayNumber.value).Some? ==>
              var prior := GetProgressByUserAndDay(s, UserId, dayNumber.value).value;
              && r.out.body.progress == prior.(notes := notes)
              && exists i :: 0 <= i < |s.progresses| && s.progresses[i] == prior
                             && r.store == s.(progresses := s.progresses[i := r.out.body.progress])
    ensures dayNumber.Some? && notes.Some? && GetProgressByUserAndDay(s, UserId, dayNumber.value).None? ==>
              var p := r.out.body.progress;
              && r.store == s.(progresses := s.progresses + [p], progressId := s.progressId + 1)
              && p.id == s.progressId && IsFor(p, UserId, dayNumber.value) && p.date == clock.today
              && p.mealCompletions == EmptyList && !p.workoutCompleted && p.exerciseCompletions == EmptyList
              && (p.notes.Some? <==> notes.value != "")
              && (p.notes.Some? ==> p.notes == notes)
    ensures UniqueProgress(s) ==> UniqueProgress(r.store)
    ensures s.Valid() ==> r.store.Valid()
  {
    match dayNumber
    case None => Step(s, Fail(BadRequest, InvalidDayNumber))
    case Some(d) =>
      match notes
      case None => Step(s, Fail(BadRequest, NotesNotString))
      case Some(text) =>
        match GetProgressByUserAndDay(s, UserId, d)
        case None =>
          var created := InsertProgress(UserId, d, clock.today, EmptyList, Some(false), None, Some(text));
          var c := CreateProgress(s, created, clock.now);
          Step(c.store, Response(Ok, OneProgress(c.out)))
        case Some(existing) =>
          var patch := EmptyPatch.(notes := Some(Some(text)));
          var u := UpdateProgress(s, existing.id, patch);
          match u.out
          case Success(updated) => Step(u.store, Response(Ok, OneProgress(updated)))
          case Failure(_) => assert false; Step(s, Fail(InternalServerError, InternalError))
  }

  /** The first day of week `weekNumber` as the summary computes it. */
  function WeekStart(weekNumber: int): int {
    (weekNumber - 1) * 7 + 1
  }

  /** GET /api/weekly-summary/:weekNumber — 400 outside weeks 1..6; otherwise the
      records of the seven days (w-1)*7+1 .. (w-1)*7+7 in ascending order, each
      read-through created (so week 6 reaches days 41 and 42). */
  method WeeklySummary(weekNumber: Option<int>, s: Store, clock: Clock) returns (r: Response, s': Store)
    ensures r.status == Ok <==> weekNumber.Some? && 1 <= weekNumber.value <= 6
    ensures r.status != Ok ==> r == Fail(BadRequest, InvalidWeekNumber) && s' == s
    ensures r.status == Ok ==> r.body.ProgressList? && |r.body.progresses| == 7
    ensures r.status == Ok ==> WeekSoFar(s, s', r.body.progresses, WeekStart(weekNumber.value), clock.today, clock.now)
    ensures Extends(s, s')
    ensures UniqueProgress(s) ==> UniqueProgress(s')
    ensures s.Valid() ==> s'.Valid()
  {
    if weekNumber.None? || weekNumber.value < 1 || weekNumber.value > 6 {
      return Fail(BadRequest, InvalidWeekNumber), s;
    }
    var startDay := WeekStart(weekNumber.value);
    var endDay := startDay + 6;
    var weekly: seq<Progress> := [];
    s' := s;
    assert s.progresses + Filter(weekly, Missing(s)) == s.progresses;
    var dayNumber := startDay;
    while dayNumber <= endDay
      invariant startDay <= dayNumber <= endDay + 1
      invariant |weekly| == dayNumber - startDay
      invariant WeekSoFar(s, s', weekly, startDay, clock.today, clock.now)
      invariant forall d :: dayNumber <= d ==>
                  GetProgressByUserAndDay(s', UserId, d) == GetProgressByUserAndDay(s, UserId, d)
      invariant Extends(s, s')
      invariant UniqueProgress(s) ==> UniqueProgress(s')
      invariant s.Valid() ==> s'.Valid()
    {
      var g := GetOrCreate(s', dayNumber, BlankRecord(dayNumber, clock.today), clock.now);
      ReadThrough(s', dayNumber, clock.today, clock.now);
      WeekStep(s, s', g.store, g.out, weekly, startDay, dayNumber, clock.today, clock.now);
      s' := g.store;
      weekly := weekly + [g.out];
      dayNumber := dayNumber + 1;
    }
    r := Response(Ok, ProgressList(weekly));
  }

  /** The fields of the record a read-through create leaves for a day that had none:
      today's date, "[]" for both lists, no workout done, null notes, created now. */
  predicate IsBlank(p: Progress, today: Day, now: Timestamp) {
    && p.date == today && p.createdAt == now
    && p.mealCompletions == EmptyList && !p.workoutCompleted
    && p.exerciseCompletions == EmptyList && p.notes.None?
  }

  /** The records of `s` lacks for their day. */
  function Missing(s: Store): Progress -> bool {
    (p: Progress) => GetProgressByUserAndDay(s, UserId, p.dayNumber).None?
  }

  /** `weekly[i]` is the record of day `startDay + i` in `t`. It is the record `s`
      already had for that day, if it had one, and otherwise a blank record created
      now; `t` holds the records of `s` followed by exactly the created ones, in day
      order. */
  ghost predicate WeekSoFar(s: Store, t: Store, weekly: seq<Progress>, startDay: int, today: Day, now: Timestamp) {
    && (forall i :: 0 <= i < |weekly| ==>
          IsFor(weekly[i], UserId, startDay + i)
          && GetProgressByUserAndDay(t, UserId, weekly[i].dayNumber) == Some(weekly[i]))
    && (forall i :: 0 <= i < |weekly| ==>
          GetProgressByUserAndDay(s, UserId, weekly[i].dayNumber).Some? ==>
          GetProgressByUserAndDay(s, UserId, weekly[i].dayNumber) == Some(weekly[i]))
    && (forall i :: 0 <= i < |weekly| ==>
          GetProgressByUserAndDay(s, UserId, weekly[i].dayNumber).None? ==> IsBlank(weekly[i], today, now))
    && t.progresses == s.progresses + Filter(weekly, Missing(s))
  }

  /** One read-through of the summary loop, stated as plain facts: the day's record is
      the one `t` had, or a blank one appended under the next id; no other day's lookup
      changes. */
  lemma {:induction false} ReadThrough(t: Store, day: int, today: Day, now: Timestamp)
    ensures var g := GetOrCreate(t, day, BlankRecord(day, today), now);
      && IsFor(g.out, UserId, day)
      && GetProgressByUserAndDay(g.store, UserId, day) == Some(g.out)
      && (GetProgressByUserAndDay(t, UserId, day).Some? ==>
            g.store == t && GetProgressByUserAndDay(t, UserId, day) == Some(g.out))
      && (GetProgressByUserAndDay(t, UserId, day).None? ==>
            g.store.progresses == t.progresses + [g.out] && IsBlank(g.out, today, now))
      && Extends(t, g.store)
      && (forall d :: d != day ==>
            GetProgressByUserAndDay(g.store, UserId, d) == GetProgressByUserAndDay(t, UserId, d))
  {
    var g := GetOrCreate(t, day, BlankRecord(day, today), now);
    FindAppendKeys(t, g.store, day);
  }

  /** One iteration of the summary loop keeps its invariant: the day's record joins
      the list, and later days still read as they did before the request. */
  lemma {:induction false} WeekStep(s: Store, t: Store, u: Store, out: Progress, weekly: seq<Progress>,
                                     startDay: int, day: int, today: Day, now: Timestamp)
    requires WeekSoFar(s, t, weekly, startDay, today, now)
    requires forall d :: day <= d ==>
               GetProgressByUserAndDay(t, UserId, d) == GetProgressByUserAndDay(s, UserId, d)
    requires Extends(s, t)
    requires day == startDay + |weekly|
    requires IsFor(out, UserId, day) && GetProgressByUserAndDay(u, UserId, day) == Some(out)
    requires GetProgressByUserAndDay(t, UserId, day).Some? ==>
               u == t && GetProgressByUserAndDay(t, UserId, day) == Some(out)
    requires GetProgressByUserAndDay(t, UserId, day).None? ==>
               u.progresses == t.progresses + [out] && IsBlank(out, today, now)
    requires Extends(t, u)
    requires forall d :: d != day ==>
               GetProgressByUserAndDay(u, UserId, d) == GetProgressByUserAndDay(t, UserId, d)
    ensures WeekSoFar(s, u, weekly + [out], startDay, today, now)
    ensures forall d :: day + 1 <= d ==>
              GetProgressByUserAndDay(u, UserId, d) == GetProgressByUserAndDay(s, UserId, d)
    ensures Extends(s, u)
  {
    ExtendsTransitive(s, t, u);
    WeekStepCreates(s, t, u, out, weekly, day);
    WeekStepKeeps(t, u, weekly, startDay, day);
    var w := weekly + [out];
    forall i | 0 <= i < |w|
      ensures IsFor(w[i], UserId, startDay + i)
      ensures GetProgressByUserAndDay(u, UserId, w[i].dayNumber) == Some(w[i])
      ensures GetProgressByUserAndDay(s, UserId, w[i].dayNumber).Some? ==>
                GetProgressByUserAndDay(s, UserId, w[i].dayNumber) == Some(w[i])
      ensures GetProgressByUserAndDay(s, UserId, w[i].dayNumber).None? ==> IsBlank(w[i], today, now)
    {
      if i < |weekly| {
        assert w[i] == weekly[i];
      } else {
        assert w[i] == out;
      }
    }
  }

  /** The records already listed still read the same after the loop adds a later day. */
  lemma {:induction false} WeekStepKeeps(t: Store, u: Store, weekly: seq<Progress>, startDay: int, day: int)
    requires forall i :: 0 <= i < |weekly| ==>
               IsFor(weekly[i], UserId, startDay + i)
               && GetProgressByUserAndDay(t, UserId, weekly[i].dayNumber) == Some(weekly[i])
    requires forall d :: d != day ==> GetProgressByUserAndDay(u, UserId, d) == GetProgressByUserAndDay(t, UserId, d)
    requires day == startDay + |weekly|
    ensures forall i :: 0 <= i < |weekly| ==>
              GetProgressByUserAndDay(u, UserId, weekly[i].dayNumber) == Some(weekly[i])
  {
    forall i | 0 <= i < |weekly|
      ensures GetProgressByUserAndDay(u, UserId, weekly[i].dayNumber) == Some(weekly[i])
    {
      assert weekly[i].dayNumber != day;
    }
  }

  /** The store after one more iteration holds the records of `s` followed by the
      created ones, the day's record included when `s` had none. */
  lemma {:induction false} WeekStepCreates(s: Store, t: Store, u: Store, out: Progress, weekly: seq<Progress>, day: int)
    requires t.progresses == s.progresses + Filter(weekly, Missing(s))
    requires GetProgressByUserAndDay(t, UserId, day) == GetProgressByUserAndDay(s, UserId, day)
    requires out.dayNumber == day
    requires GetProgressByUserAndDay(t, UserId, day).Some? ==> u == t
    requires GetProgressByUserAndDay(t, UserId, day).None? ==> u.progresses == t.progresses + [out]
    ensures u.progresses == s.progresses + Filter(weekly + [out], Missing(s))
  {
    var before := Filter(weekly, Missing(s));
    FilterAppend(weekly, [out], Missing(s));
    assert Filter([out], Missing(s)) == if Missing(s)(out) then [out] else [];
    if GetProgressByUserAndDay(s, UserId, day).None? {
      assert Filter(weekly + [out], Missing(s)) == before + [out];
      assert u.progresses == (s.progresses + before) + [out];
      assert (s.progresses + before) + [out] == s.progresses + (before + [out]);
    } else {
      assert Filter(weekly + [out], Missing(s)) == before;
    }
  }

  /** A store that only grew by a record for `day` answers lookups for every other
      day as before; for `day` itself an existing answer is kept. */
  lemma FindAppendKeys(s: Store, t: Store, day: int)
    requires Extends(s, t)
    requires forall j :: |s.progresses| <= j < |t.progresses| ==> t.progresses[j].dayNumber == day
    ensures forall d :: d != day ==>
              GetProgressByUserAndDay(t, UserId, d) == GetProgressByUserAndDay(s, UserId, d)
    ensures GetProgressByUserAndDay(s, UserId, day).Some? ==>
              GetProgressByUserAndDay(t, UserId, day) == GetProgressByUserAndDay(s, UserId, day)
  {
    var extra := t.progresses[|s.progresses|..];
    assert t.progresses == s.progresses + extra;
    forall d
      ensures d != day ==> GetProgressByUserAndDay(t, UserId, d) == GetProgressByUserAndDay(s, UserId, d)
      ensures d == day && GetProgressByUserAndDay(s, UserId, day).Some? ==>
                GetProgressByUserAndDay(t, UserId, d) == GetProgressByUserAndDay(s, UserId, d)
    {
      var p := (q: Progress) => IsFor(q, UserId, d);
      FindAppend(s.progresses, extra, p);
      assert GetProgressByUserAndDay(t, UserId, d) == Find(t.progresses, p);
      assert GetProgressByUserAndDay(s, UserId, d) == Find(s.progresses, p);
    }
  }
}

=== FILE: schema.dfy ===
/** The record shapes of `shared/schema.ts`: the four tables the app stores
    (meals, workouts, exercises, progress) and their `Insert*` variants, which are
    the same records without the server-assigned columns. */
module Schema {
  import opened Wrappers

  /** A calendar date, as a count of days since 1970-01-01 (UTC). */
  type Day = int

  /** An instant, as milliseconds since the Unix epoch (only carried, never inspected). */
  type Timestamp = int

  /** The text of a completion column, which holds a JSON list of ids.
      `Blank` is the empty string (falsy, and not JSON); `Json(ids)` is the
      serialisation of `ids`; `Garbled` is any other text that does not parse. */
  datatype IdListText = Blank | Json(ids: seq<int>) | Garbled

  /** `JSON.parse` of a completion column; `None` where it would throw. */
  function ParseIds(t: IdListText): (r: Option<seq<int>>)
    ensures r.Some? <==> t.Json?
    ensures t.Json? ==> r.value == t.ids
  {
    if t.Json? then Some(t.ids) else None
  }

  /** `JSON.stringify([])`, the empty completion list. */
  const EmptyList: IdListText := Json([])

  // ----- meals -----

  datatype InsertMeal = InsertMeal(day: string, time: string, description: string, calories: int, dayNumber: int) {
    /** The stored meal: the insert record plus its id. */
    function WithId(id: int): (m: Meal)
      ensures m.id == id && m.Insert() == this
    {
      Meal(id, day, time, description, calories, dayNumber)
    }
  }

  /** A meal carries both its weekday name and a plan day number. */
  datatype Meal = Meal(id: int, day: string, time: string, description: string, calories: int, dayNumber: int) {
    /** `insertMealSchema`: the meal with only `id` omitted. */
    function Insert(): InsertMeal
    {
      InsertMeal(day, time, description, calories, dayNumber)
    }
  }

  // ----- workouts -----

  datatype InsertWorkout = InsertWorkout(day: string, workoutType: string, dayNumber: int) {
    function WithId(id: int): (w: Workout)
      ensures w.id == id && w.Insert() == this
    {
      Workout(id, day, workoutType, dayNumber)
    }
  }

  /** A workout carries both its weekday name and a plan day number. */
  datatype Workout = Workout(id: int, day: string, workoutType: string, dayNumber: int) {
    /** `insertWorkoutSchema`: the workout with only `id` omitted. */
    function Insert(): InsertWorkout
    {
      InsertWorkout(day, workoutType, dayNumber)
    }
  }

  // ----- exercises -----

  datatype InsertExercise = InsertExercise(workoutId: int, name: string, repsAndWeight: string) {
    function WithId(id: int): (e: Exercise)
      ensures e.id == id && e.Insert() == this
    {
      Exercise(id, workoutId, name, repsAndWeight)
    }
  }

  datatype Exercise = Exercise(id: int, workoutId: int, name: string, repsAndWeight: string) {
    /** `insertExerciseSchema`: the exercise with only `id` omitted. */
    function Insert(): InsertExercise
    {
      InsertExercise(workoutId, name, repsAndWeight)
    }
  }

  /** Omitting the id and putting it back gives the stored record again. */
  lemma OmitIdRoundTrip(m: Meal, w: Workout, e: Exercise)
    ensures m.Insert().WithId(m.id) == m
    ensures w.Insert().WithId(w.id) == w
    ensures e.Insert().WithId(e.id) == e
  {
  }

  // ----- progress -----

  /** One user's record for one plan day. `notes` is the only nullable column. */
  datatype Progress = Progress(
    id: int,
    userId: int,
    dayNumber: int,
    date: Day,
    mealCompletions: IdListText,
    workoutCompleted: bool,
    exerciseCompletions: IdListText,
    notes: Option<string>,
    createdAt: Timestamp)

  /** Column default of `workoutCompleted`. */
  const DefaultWorkoutCompleted: bool := false

  /** Column default of `exerciseCompletions`. */
  const DefaultExerciseCompletions: IdListText := EmptyList

  /** `insertProgressSchema`: `Progress` without `id` and `createdAt`. Columns with a
      default (`workoutCompleted`, `exerciseCompletions`) and the nullable `notes`
      may be left out (`None`); for `notes`, `None` covers both absent and null. */
  datatype InsertProgress = InsertProgress(
    userId: int,
    dayNumber: int,
    date: Day,
    mealCompletions: IdListText,
    workoutCompleted: Option<bool>,
    exerciseCompletions: Option<IdListText>,
    notes: Option<string>)

  /** `insertProgressSchema.partial()`: every column optional (`None` = key absent).
      `notes` may also be present and null, hence the nested option. There is no
      `id` or `createdAt` field, so no patch can reach those columns. */
  datatype ProgressPatch = ProgressPatch(
    userId: Option<int>,
    dayNumber: Option<int>,
    date: Option<Day>,
    mealCompletions: Option<IdListText>,
    workoutCompleted: Option<bool>,
    exerciseCompletions: Option<IdListText>,
    notes: Option<Option<string>>)

  /** The patch with no key at all. */
  const EmptyPatch: ProgressPatch := ProgressPatch(None, None, None, None, None, None, None)

  /** `{ ...existing, ...patch }`: every column the patch carries is overwritten,
      every other column (and always `id` and `createdAt`) is kept. */
  function Merge(p: Progress, patch: ProgressPatch): (r: Progress)
    ensures r.id == p.id && r.createdAt == p.createdAt
    ensures r.userId == patch.userId.GetOr(p.userId)
    ensures r.dayNumber == patch.dayNumber.GetOr(p.dayNumber)
    ensures r.date == patch.date.GetOr(p.date)
    ensures r.mealCompletions == patch.mealCompletions.GetOr(p.mealCompletions)
    ensures r.workoutCompleted == patch.workoutCompleted.GetOr(p.workoutCompleted)
    ensures r.exerciseCompletions == patch.exerciseCompletions.GetOr(p.exerciseCompletions)
    ensures r.notes == patch.notes.GetOr(p.notes)
  {
    p.(
      userId := patch.userId.GetOr(p.userId),
      dayNumber := patch.dayNumber.GetOr(p.dayNumber),
      date := patch.date.GetOr(p.date),
      mealCompletions := patch.mealCompletions.GetOr(p.mealCompletions),
      workoutCompleted := patch.workoutCompleted.GetOr(p.workoutCompleted),
      exerciseCompletions := patch.exerciseCompletions.GetOr(p.exerciseCompletions),
      notes := patch.notes.GetOr(p.notes))
  }

  /** The patch that carries every column of `q` that a patch can carry. */
  function FullPatch(q: Progress): (r: ProgressPatch)
    ensures r.userId.Some? && r.dayNumber.Some? && r.date.Some? && r.mealCompletions.Some?
    ensures r.workoutCompleted.Some? && r.exerciseCompletions.Some? && r.notes.Some?
  {
    ProgressPatch(Some(q.userId), Some(q.dayNumber), Some(q.date), Some(q.mealCompletions),
                  Some(q.workoutCompleted), Some(q.exerciseCompletions), Some(q.notes))
  }

  /** The empty patch changes nothing. */
  lemma MergeEmpty(p: Progress)
    ensures Merge(p, EmptyPatch) == p
  {
  }

  /** A full patch makes the record equal to `q` in everything but `id` and `createdAt`. */
  lemma MergeFull(p: Progress, q: Progress)
    ensures Merge(p, FullPatch(q)) == q.(id := p.id, createdAt := p.createdAt)
  {
  }

  /** Merging is last-writer-wins per column: two merges equal one merge of the
      combined patch in which the later patch's keys take precedence. */
  function Combine(first: ProgressPatch, second: ProgressPatch): (r: ProgressPatch)
    ensures forall p :: Merge(Merge(p, first), second) == Merge(p, r)
  {
    ProgressPatch(
      if second.userId.Some? then second.userId else first.userId,
      if second.dayNumber.Some? then second.dayNumber else first.dayNumber,
      if second.date.Some? then second.date else first.date,
      if second.mealCompletions.Some? then second.mealCompletions else first.mealCompletions,
      if second.workoutCompleted.Some? then second.workoutCompleted else first.workoutCompleted,
      if second.exerciseCompletions.Some? then second.exerciseCompletions else first.exerciseCompletions,
      if second.notes.Some? then second.notes else first.notes)
  }
}

=== FILE: seed.dfy ===
/** `initializeMealPlan` of `server/storage.ts`: the catalog the store is seeded
    with — three meals, one workout and its exercises for each weekday, created
    day by day in table order. Seeding is taken as finished before any request. */
module Seed {
  import opened Wrappers
  import opened Schema
  import opened Storage
  import Utils

  datatype MealPlan = MealPlan(time: string, description: string, calories: int)
  datatype ExercisePlan = ExercisePlan(name: string, repsAndWeight: string)

  /** One weekday of the seed table. */
  datatype DayPlan = DayPlan(
    day: string, dayNumber: int, meals: seq<MealPlan>, workoutType: string, exercises: seq<ExercisePlan>)

  const Monday: DayPlan := DayPlan(
    "monday", 1,
    [ MealPlan("12:00 PM", "1 Cappuccino (low-cal milk)", 100),
      MealPlan("1:00 PM", "2 Scrambled Eggs (150 kcal) + 150g Beef Patty (350 kcal) + 1 tbsp Olive Oil (50 kcal)", 500),
      MealPlan("7:00 PM", "150g Chicken Thighs (350 kcal) + 100g Full-Fat Yogurt (150 kcal)", 500) ],
    "Lower Body & Core",
    [ ExercisePlan("Warm-up Cardio", "10 min moderate intensity"),
      ExercisePlan("Barbell Squats", "4x8–10 (40–50% bodyweight)"),
      ExercisePlan("Romanian Deadlifts", "3x10–12 (25–35 kg)"),
      ExercisePlan("Hip Thrusts", "3x12 (40–50 kg)"),
      ExercisePlan("Calf Raises", "3x15 (Bodyweight or add dumbbells)"),
      ExercisePlan("Hanging Leg Raises", "3x12") ])

  const Tuesday: DayPlan := DayPlan(
    "tuesday", 2,
    [ MealPlan("12:00 PM", "1 Cappuccino", 100),
      MealPlan("1:00 PM", "2 Boiled Eggs (150 kcal) + 150g Grilled Chicken Breast (300 kcal) + 1 tbsp Olive Oil (50 kcal)", 500),
      MealPlan("7:00 PM", "150g Salmon (400 kcal) + 1 Egg White Omelette (100 kcal)", 500) ],
    "Upper Body & Arms",
    [ ExercisePlan("Warm-up Cardio", "10 min moderate intensity"),
      ExercisePlan("Barbell Bench Press", "4x8–10 (30–40 kg)"),
      ExercisePlan("Seated Dumbbell Shoulder Press", "3x10 (7–10 kg each)"),
      ExercisePlan("Lat Pulldown", "3x12 (25–35 kg)"),
      ExercisePlan("Bicep Curls", "3x12 (6–8 kg each)"),
      ExercisePlan("Triceps Dips", "3x12 (Bodyweight or assisted)") ])

  const Wednesday: DayPlan := DayPlan(
    "wednesday", 3,
    [ MealPlan("12:00 PM", "1 Cappuccino", 100),
      MealPlan("1:00 PM", "150g Lean Beef (300 kcal) + 2 Fried Eggs (150 kcal) + 1 tbsp Olive Oil (50 kcal)", 500),
      MealPlan("7:00 PM", "150g Hake (300 kcal) + 1 Boiled Egg (70 kcal) + 1 tbsp Olive Oil (50 kcal) + 1/2 cup Yogurt (80 kcal)", 500) ],
    "Glutes & Hamstrings",
    [ ExercisePlan("Warm-up Cardio", "10 min moderate intensity"),
      ExercisePlan("Deadlifts", "4x8 (40–50% bodyweight)"),
      ExercisePlan("Bulgarian Split Squats", "3x10 per leg (Bodyweight or 8–10 kg dumbbells)"),
      ExercisePlan("Glute Bridges", "3x12 (30–40 kg)"),
      ExercisePlan("Hamstring Curls (Machine)", "3x12 (20–30 kg)") ])

  const Thursday: DayPlan := DayPlan(
    "thursday", 4,
    [ MealPlan("12:00 PM", "1 Cappuccino", 100),
      MealPlan("1:00 PM", "150g Chicken Breast (300 kcal) + 2 Scrambled Eggs (150 kcal) + 1 tbsp Olive Oil (50 kcal)", 500),
      MealPlan("7:00 PM", "150g Beef Patty (350 kcal) + 100g Yogurt (150 kcal)", 500) ],
    "Full Body Strength",
    [ ExercisePlan("Warm-up Cardio", "10 min moderate intensity"),
      ExercisePlan("Back Squats", "4x8 (40–50% bodyweight)"),
      ExercisePlan("Deadlifts", "3x8 (40–50% bodyweight)"),
      ExercisePlan("Pull-Ups", "3x8 (Assisted if needed)"),
      ExercisePlan("Bent Over Rows", "3x10 (20–30 kg total)"),
      ExercisePlan("Planks", "3x1 min hold") ])

  const Friday: DayPlan := DayPlan(
    "friday", 5,
    [ MealPlan("12:00 PM", "1 Cappuccino + 1 Glass of Wine", 220),
      MealPlan("1:00 PM", "Skipped to balance dinner calories", 0),
      MealPlan("7:00 PM", "Sushi: 2 Salmon Roses (140 kcal) + 8 Prawn California Rolls (720 kcal) + Soy Sauce & Wasabi (40 kcal)", 900) ],
    "Running (30–45 min)",
    [ ExercisePlan("Warm-up Cardio", "10 min light intensity"),
      ExercisePlan("Steady-State Run (Moderate Pace)", "5-6 km"),
      ExercisePlan("HIIT Sprints", "10 rounds: 30 sec sprint / 1 min walk") ])

  const Saturday: DayPlan := DayPlan(
    "saturday", 6,
    [ MealPlan("12:00 PM", "1 Cappuccino + 1 Glass of Wine", 220),
      MealPlan("1:00 PM", "Naughty nutter or self made smoothie bowl", 500),
      MealPlan("7:00 PM", "150g Lean Beef (250 kcal) + 150g Roasted Zucchini (100 kcal) + 1 tbsp Olive Oil (100 kcal). Popcorn 1/2. Or dark chock 6 pieces.", 450) ],
    "Rest Day (Active Recovery)",
    [ ExercisePlan("Light Cardio Walk", "10-15 min at comfortable pace"),
      ExercisePlan("Gentle Stretching", "Full body, 15-20 min") ])

  const Sunday: DayPlan := DayPlan(
    "sunday", 7,
    [ MealPlan("12:00 PM", "1 Cappuccino", 100),
      MealPlan("1:00 PM", "150g Turkey Breast (200 kcal) + 150g Grilled Peppers (120 kcal) + 1 tbsp Olive Oil (120 kcal)", 440),
      MealPlan("7:00 PM", "Chicken salad from spar", 500) ],
    "Rest Day (Active Recovery)",
    [ ExercisePlan("Light Cardio Walk", "10-15 min at comfortable pace"),
      ExercisePlan("Gentle Stretching", "Full body, 15-20 min") ])
  /** The seed table, Monday first. */
  const Plan: seq<DayPlan> := [Monday, Tuesday, Wednesday, Thursday, Friday, Saturday, Sunday]

  /** The number of stored exercises per weekday, Monday first. */
  const ExerciseCounts: seq<int> := [6, 6, 5, 6, 3, 2, 2]

  /** The table's weekday names are the client's `dayNames`, in the same order. */
  lemma PlanDays()
    ensures |Plan| == |Utils.DayNames| == 7
    ensures forall i :: 0 <= i < 7 ==> Plan[i].day == Utils.DayNames[i]
    ensures forall i :: 0 <= i < 7 ==> |Plan[i].meals| == 3 && |Plan[i].exercises| == ExerciseCounts[i]
    ensures forall i, j :: 0 <= i < 7 && 0 <= j < 7 && i != j ==> Plan[i].day != Plan[j].day
  {
  }

  /** `createMeal` for each entry of `meals`, in order. */
  function AddMeals(s: Store, day: string, dayNumber: int, meals: seq<MealPlan>): Store
    decreases |meals|
  {
    if |meals| == 0 then s
    else
      var m := meals[0];
      AddMeals(CreateMeal(s, InsertMeal(day, m.time, m.description, m.calories, dayNumber)).store,
               day, dayNumber, meals[1..])
  }

  /** `createExercise` for each entry of `exercises`, in order, all for workout `workoutId`. */
  function AddExercises(s: Store, workoutId: int, exercises: seq<ExercisePlan>): Store
    decreases |exercises|
  {
    if |exercises| == 0 then s
    else
      var e := exercises[0];
      AddExercises(CreateExercise(s, InsertExercise(workoutId, e.name, e.repsAndWeight)).store,
                   workoutId, exercises[1..])
  }

  /** One weekday of seeding: its meals, then its workout, then that workout's exercises. */
  function AddDay(s: Store, p: DayPlan): Store {
    var s1 := AddMeals(s, p.day, p.dayNumber, p.meals);
    var w := CreateWorkout(s1, InsertWorkout(p.day, p.workoutType, p.dayNumber));
    AddExercises(w.store, w.out.id, p.exercises)
  }

  /** The first `|plans|` weekdays of seeding, on top of `s`. */
  function AddDays(s: Store, plans: seq<DayPlan>): Store
    decreases |plans|
  {
    if |plans| == 0 then s else AddDay(AddDays(s, plans[..|plans| - 1]), plans[|plans| - 1])
  }

  /** The store as the constructor leaves it once seeding has run. */
  function Initial(): Store {
    AddDays(Empty(), Plan)
  }

  lemma {:induction false} AddMealsEffect(s: Store, day: string, dayNumber: int, meals: seq<MealPlan>, d: string)
    ensures var t := AddMeals(s, day, dayNumber, meals);
      && t.workouts == s.workouts && t.workoutId == s.workoutId
      && t.exercises == s.exercises && t.progresses == s.progresses
      && |GetMealsByDay(t, d)| == |GetMealsByDay(s, d)| + (if d == day then |meals| else 0)
      && (s.Valid() ==> t.Valid())
    decreases |meals|
  {
    if |meals| > 0 {
      var m := meals[0];
      var ins := InsertMeal(day, m.time, m.description, m.calories, dayNumber);
      CreateMealQueries(s, ins, d);
      AddMealsEffect(CreateMeal(s, ins).store, day, dayNumber, meals[1..], d);
    }
  }

  lemma {:induction false} AddExercisesEffect(s: Store, workoutId: int, exercises: seq<ExercisePlan>, w: int)
    ensures var t := AddExercises(s, workoutId, exercises);
      && t.workouts == s.workouts && t.workoutId == s.workoutId
      && t.meals == s.meals && t.progresses == s.progresses
      && |GetExercisesByWorkoutId(t, w)| == |GetExercisesByWorkoutId(s, w)| + (if w == workoutId then |exercises| else 0)
      && (s.Valid() ==> t.Valid())
    decreases |exercises|
  {
    if |exercises| > 0 {
      var e := exercises[0];
      var ins := InsertExercise(workoutId, e.name, e.repsAndWeight);
      CreateExerciseQueries(s, ins, w);
      AddExercisesEffect(CreateExercise(s, ins).store, workoutId, exercises[1..], w);
    }
  }

  /** Seeding one weekday appends its workout under the next workout id, adds its meals
      under its name and its exercises under that id, and creates no progress. */
  lemma {:induction false} AddDayEffect(s: Store, p: DayPlan, d: string, w: int)
    ensures var t := AddDay(s, p);
      && t.workouts == s.workouts + [Workout(s.workoutId, p.day, p.workoutType, p.dayNumber)]
      && t.workoutId == s.workoutId + 1
      && t.progresses == s.progresses
      && |GetMealsByDay(t, d)| == |GetMealsByDay(s, d)| + (if d == p.day then |p.meals| else 0)
      && |GetExercisesByWorkoutId(t, w)| == |GetExercisesByWorkoutId(s, w)| + (if w == s.workoutId then |p.exercises| else 0)
      && (s.Valid() ==> t.Valid())
  {
    var s1 := AddMeals(s, p.day, p.dayNumber, p.meals);
    AddMealsEffect(s, p.day, p.dayNumber, p.meals, d);
    var cw := CreateWorkout(s1, InsertWorkout(p.day, p.workoutType, p.dayNumber));
    AddExercisesEffect(cw.store, cw.out.id, p.exercises, w);
    AddMealsEffect(cw.store, p.day, p.dayNumber, [], d);
    assert GetExercisesByWorkoutId(cw.store, w) == GetExercisesByWorkoutId(s1, w);
    assert GetMealsByDay(cw.store, d) == GetMealsByDay(s1, d);
    AddExercisesEffect(s, s.workoutId, [], w);
    AddMealsEffect(s, p.day, p.dayNumber, p.meals, d);
  }

  /** What the first `k` weekdays of seeding leave behind. */
  ghost predicate SeededUpTo(s: Store, k: nat)
    requires k <= 7
  {
    && s.Valid()
    && s.progresses == []
    && |s.workouts| == k
    && (forall i :: 0 <= i < k ==>
          s.workouts[i] == Workout(i + 1, Plan[i].day, Plan[i].workoutType, Plan[i].dayNumber))
    && (forall i :: 0 <= i < 7 ==>
          |GetMealsByDay(s, Plan[i].day)| == (if i < k then |Plan[i].meals| else 0))
    && (forall w :: 1 <= w <= 7 ==>
          |GetExercisesByWorkoutId(s, w)| == (if w <= k then |Plan[w - 1].exercises| else 0))
  }

  lemma {:induction false} SeedingPrefix(k: nat)
    requires k <= 7
    ensures SeededUpTo(AddDays(Empty(), Plan[..k]), k)
  {
    if k > 0 {
      SeedingPrefix(k - 1);
      var s := AddDays(Empty(), Plan[..k - 1]);
      assert Plan[..k][..k - 1] == Plan[..k - 1];
      assert AddDays(Empty(), Plan[..k]) == AddDay(s, Plan[k - 1]);
      SeedingStep(s, k);
    } else {
      assert AddDays(Empty(), Plan[..0]) == Empty();
      forall i | 0 <= i < 7
        ensures |GetMealsByDay(Empty(), Plan[i].day)| == 0
      {
      }
      forall w | 1 <= w <= 7
        ensures |GetExercisesByWorkoutId(Empty(), w)| == 0
      {
      }
    }
  }

  /** Seeding weekday k on top of the first k-1. */
  lemma {:induction false} SeedingStep(s: Store, k: nat)
    requires 0 < k <= 7
    requires SeededUpTo(s, k - 1)
    ensures SeededUpTo(AddDay(s, Plan[k - 1]), k)
  {
    PlanDays();
    var t := AddDay(s, Plan[k - 1]);
    AddDayEffect(s, Plan[k - 1], "", 0);
    forall i | 0 <= i < 7
      ensures |GetMealsByDay(t, Plan[i].day)| == (if i < k then |Plan[i].meals| else 0)
    {
      AddDayEffect(s, Plan[k - 1], Plan[i].day, 0);
    }
    forall w | 1 <= w <= 7
      ensures |GetExercisesByWorkoutId(t, w)| == (if w <= k then |Plan[w - 1].exercises| else 0)
    {
      AddDayEffect(s, Plan[k - 1], "", w);
    }
  }

  /** After seeding, every weekday name has exactly three meals and one workout (whose id
      is its position in the week), with 6, 6, 5, 6, 3, 2, 2 exercises Monday to Sunday. */
  lemma {:induction false} SeededCatalog()
    ensures Initial().Valid() && Initial().progresses == [] && |Initial().workouts| == 7
    ensures forall i :: 0 <= i < 7 ==> |GetMealsByDay(Initial(), Utils.DayNames[i])| == 3
    ensures forall i :: 0 <= i < 7 ==>
              GetWorkoutByDay(Initial(), Utils.DayNames[i]) == Some(Initial().workouts[i])
              && Initial().workouts[i].id == i + 1
    ensures forall i :: 0 <= i < 7 ==> |GetExercisesByWorkoutId(Initial(), i + 1)| == ExerciseCounts[i]
  {
    SeedingPrefix(7);
    assert Plan[..7] == Plan;
    CatalogOfSeeded(Initial());
  }

  lemma CatalogOfSeeded(s: Store)
    requires SeededUpTo(s, 7)
    ensures s.Valid() && s.progresses == [] && |s.workouts| == 7
    ensures forall i :: 0 <= i < 7 ==> |GetMealsByDay(s, Utils.DayNames[i])| == 3
    ensures forall i :: 0 <= i < 7 ==>
              GetWorkoutByDay(s, Utils.DayNames[i]) == Some(s.workouts[i]) && s.workouts[i].id == i + 1
    ensures forall i :: 0 <= i < 7 ==> |GetExercisesByWorkoutId(s, i + 1)| == ExerciseCounts[i]
  {
    PlanDays();
    forall i | 0 <= i < 7
      ensures GetWorkoutByDay(s, Utils.DayNames[i]) == Some(s.workouts[i])
      ensures |GetExercisesByWorkoutId(s, i + 1)| == ExerciseCounts[i]
    {
      Seqs.FindAt(s.workouts, (w: Workout) => w.day == Utils.DayNames[i], i);
      assert |GetExercisesByWorkoutId(s, i + 1)| == |Plan[i].exercises|;
    }
  }
}

=== FILE: seqs.dfy ===
/** Order-preserving queries over sequences: the `Array.prototype.filter` and
    `Array.prototype.find` that every lookup of the in-memory store is built on. */
module Seqs {
  import opened Wrappers

  /** The elements of `xs` that satisfy `p`, in their original order. */
  function Filter<T>(xs: seq<T>, p: T -> bool): (r: seq<T>)
    ensures |r| <= |xs|
    ensures forall i :: 0 <= i < |r| ==> r[i] in xs && p(r[i])
    ensures forall i :: 0 <= i < |xs| && p(xs[i]) ==> xs[i] in r
  {
    if |xs| == 0 then []
    else (if p(xs[0]) then [xs[0]] else []) + Filter(xs[1..], p)
  }

  /** Filtering distributes over concatenation: what is appended later comes later. */
  lemma {:induction false} FilterAppend<T>(a: seq<T>, b: seq<T>, p: T -> bool)
    ensures Filter(a + b, p) == Filter(a, p) + Filter(b, p)
  {
    if |a| == 0 {
      assert a + b == b;
    } else {
      assert (a + b)[0] == a[0];
      assert (a + b)[1..] == a[1..] + b;
      FilterAppend(a[1..], b, p);
    }
  }

  /** A sequence whose elements all satisfy `p` is its own filter; one where none does filters to empty. */
  lemma {:induction false} FilterAllOrNone<T>(xs: seq<T>, p: T -> bool)
    ensures (forall i :: 0 <= i < |xs| ==> p(xs[i])) ==> Filter(xs, p) == xs
    ensures (forall i :: 0 <= i < |xs| ==> !p(xs[i])) ==> Filter(xs, p) == []
  {
    if |xs| > 0 {
      FilterAllOrNone(xs[1..], p);
      if forall i :: 0 <= i < |xs| ==> p(xs[i]) {
        assert forall i :: 0 <= i < |xs[1..]| ==> p(xs[1..][i]) by {
          forall i | 0 <= i < |xs[1..]| ensures p(xs[1..][i]) {
            assert xs[1..][i] == xs[i + 1];
          }
        }
        assert xs == [xs[0]] + xs[1..];
      }
      if forall i :: 0 <= i < |xs| ==> !p(xs[i]) {
        assert forall i :: 0 <= i < |xs[1..]| ==> !p(xs[1..][i]) by {
          forall i | 0 <= i < |xs[1..]| ensures !p(xs[1..][i]) {
            assert xs[1..][i] == xs[i + 1];
          }
        }
      }
    }
  }

  /** The index of the first element of `xs` that satisfies `p`, if any. */
  function FindIndex<T>(xs: seq<T>, p: T -> bool): (r: Option<nat>)
    ensures r.Some? ==> r.value < |xs| && p(xs[r.value])
    ensures r.Some? ==> forall j :: 0 <= j < r.value ==> !p(xs[j])
    ensures r.None? <==> forall j :: 0 <= j < |xs| ==> !p(xs[j])
  {
    if |xs| == 0 then None
    else if p(xs[0]) then Some(0)
    else
      match FindIndex(xs[1..], p)
      case None => None
      case Some(i) => Some(i + 1)
  }

  /** The first element of `xs` that satisfies `p` (`Array.prototype.find`). */
  function Find<T>(xs: seq<T>, p: T -> bool): (r: Option<T>)
    ensures r.Some? <==> exists i :: 0 <= i < |xs| && p(xs[i])
    ensures r.Some? ==> r.value in xs && p(r.value)
  {
    match FindIndex(xs, p)
    case None => None
    case Some(i) => Some(xs[i])
  }

  /** `Find` returns the element at a matching index `i` when nothing before `i` matches. */
  lemma FindAt<T>(xs: seq<T>, p: T -> bool, i: nat)
    requires i < |xs| && p(xs[i])
    requires forall j :: 0 <= j < i ==> !p(xs[j])
    ensures FindIndex(xs, p) == Some(i)
    ensures Find(xs, p) == Some(xs[i])
  {
  }

  /** Appending to a sequence does not change an existing first match. */
  lemma FindAppend<T>(xs: seq<T>, ys: seq<T>, p: T -> bool)
    ensures Find(xs, p).Some? ==> Find(xs + ys, p) == Find(xs, p)
    ensures Find(xs, p).None? ==> Find(xs + ys, p) == Find(ys, p)
  {
    match FindIndex(xs, p)
    case Some(i) =>
      FindAt(xs + ys, p, i);
    case None =>
      match FindIndex(ys, p)
      case Some(k) =>
        FindAt(xs + ys, p, |xs| + k);
      case None =>
        assert forall j :: 0 <= j < |xs + ys| ==> !p((xs + ys)[j]) by {
          forall j | 0 <= j < |xs + ys| ensures !p((xs + ys)[j]) {
            if j >= |xs| { assert (xs + ys)[j] == ys[j - |xs|]; }
          }
        }
  }
}

=== FILE: serverless.dfy ===
/** The serverless copy of the API in `api/index.js`. Its meals handler is the same
    code as the Express one (`Routes.GetMeals`); its workouts handler builds the
    exercise list from a table of its own, and its progress reader also sets the
    exercise list of a new record. */
module Serverless {
  import opened Wrappers
  import opened Schema
  import opened Storage
  import opened Routes
  import Text
  import Utils
  import Seed

  datatype TableEntry = TableEntry(name: string, repsAndWeight: string)

  /** `dayToExercisesMap`, keyed by lower-case weekday name. */
  function ExerciseTable(dayKey: string): (r: Option<seq<TableEntry>>)
    ensures r.Some? <==> dayKey in Utils.DayNames
    ensures r.Some? ==> 0 < |r.value| < 100
  {
    if dayKey == "monday" then Some([
      TableEntry("Barbell Squats", "4x8–10 (40–50% bodyweight)"),
      TableEntry("Romanian Deadlifts", "3x10–12 (25–35 kg)"),
      TableEntry("Hip Thrusts", "3x12 (40–50 kg)"),
      TableEntry("Calf Raises", "3x15 (Bodyweight or add dumbbells)"),
      TableEntry("Hanging Leg Raises", "3x12")])
    else if dayKey == "tuesday" then Some([
      TableEntry("Dynamic Warmup", "10 minutes"),
      TableEntry("Barbell Bench Press", "4x8–10 (30–40 kg)"),
      TableEntry("Seated Dumbbell Shoulder Press", "3x10 (7–10 kg each)"),
      TableEntry("Lat Pulldown", "3x12 (25–35 kg)"),
      TableEntry("Bicep Curls", "3x12 (6–8 kg each)"),
      TableEntry("Triceps Dips", "3x12 (Bodyweight or assisted)")])
    else if dayKey == "wednesday" then Some([
      TableEntry("Deadlifts", "4x8 (40–50% bodyweight)"),
      TableEntry("Bulgarian Split Squats", "3x10 per leg (Bodyweight or 8–10 kg dumbbells)"),
      TableEntry("Glute Bridges", "3x12 (30–40 kg)"),
      TableEntry("Hamstring Curls (Machine)", "3x12 (20–30 kg)")])
    else if dayKey == "thursday" then Some([
      TableEntry("Back Squats", "4x8 (40–50% bodyweight)"),
      TableEntry("Deadlifts", "3x8 (40–50% bodyweight)"),
      TableEntry("Pull-Ups", "3x8 (Assisted if needed)"),
      TableEntry("Bent Over Rows", "3x10 (20–30 kg total)"),
      TableEntry("Planks", "3x1 min hold")])
    else if dayKey == "friday" then Some([
      TableEntry("Steady-State Run (Moderate Pace)", "5-6 km"),
      TableEntry("HIIT Sprints", "10 rounds: 30 sec sprint / 1 min walk")])
    else if dayKey == "saturday" then Some([
      TableEntry("Active Recovery", "Light walking, stretching")])
    else if dayKey == "sunday" then Some([
      TableEntry("Active Recovery", "Light walking, stretching")])
    else None
  }

  /** The table has 5, 6, 4, 5, 2, 1 and 1 entries for Monday to Sunday. */
  const TableCounts: seq<int> := [5, 6, 4, 5, 2, 1, 1]

  lemma TableSizes()
    ensures forall i :: 0 <= i < 7 ==> |ExerciseTable(Utils.DayNames[i]).value| == TableCounts[i]
  {
  }

  /** The id the handler gives entry `index` of the table for workout `workoutId`. */
  function SyntheticId(workoutId: int, index: int): int {
    workoutId * 100 + index
  }

  /** Entry `index` of the list is the table entry with a synthetic id, tied to the workout. */
  function Synthesize(workoutId: int, entries: seq<TableEntry>): (r: seq<Exercise>)
    ensures |r| == |entries|
    ensures forall i :: 0 <= i < |r| ==>
              r[i] == Exercise(SyntheticId(workoutId, i), workoutId, entries[i].name, entries[i].repsAndWeight)
  {
    seq(|entries|, i requires 0 <= i < |entries| =>
      Exercise(SyntheticId(workoutId, i), workoutId, entries[i].name, entries[i].repsAndWeight))
  }

  /** A synthetic id determines its workout and its position, while positions stay below 100. */
  lemma {:induction false} SyntheticIdInjective(w1: int, i1: int, w2: int, i2: int)
    requires 0 <= i1 < 100 && 0 <= i2 < 100
    requires SyntheticId(w1, i1) == SyntheticId(w2, i2)
    ensures w1 == w2 && i1 == i2
  {
    assert SyntheticId(w1, i1) / 100 == w1;
    assert SyntheticId(w2, i2) / 100 == w2;
  }

  /** GET /api/workouts/:day (serverless) — 400 for an empty day, 404 when no workout
      has the lower-cased weekday (before the table is consulted); a weekday in the
      table gets the table's list with synthetic ids; any other key falls back to the
      stored exercises of the workout. */
  function GetWorkout(s: Store, day: string): (r: Response)
    ensures day == "" ==> r == Fail(BadRequest, DayRequired)
    ensures day != "" && GetWorkoutByDay(s, Text.Lower(day)).None? ==> r == Fail(NotFound, WorkoutMissing)
    ensures r.status == Ok <==> day != "" && GetWorkoutByDay(s, Text.Lower(day)).Some?
    ensures r.status == Ok ==> r.body.WorkoutWithExercises?
                               && Some(r.body.workout) == GetWorkoutByDay(s, Text.Lower(day))
    ensures r.status == Ok && Text.Lower(day) in Utils.DayNames ==>
              var table := ExerciseTable(Text.Lower(day)).value;
              && |r.body.exercises| == |table|
              && forall i :: 0 <= i < |table| ==>
                   r.body.exercises[i].id == SyntheticId(r.body.workout.id, i)
                   && r.body.exercises[i].workoutId == r.body.workout.id
                   && r.body.exercises[i].name == table[i].name
                   && r.body.exercises[i].repsAndWeight == table[i].repsAndWeight
    ensures r.status == Ok && Text.Lower(day) !in Utils.DayNames ==>
              r.body.exercises == GetExercisesByWorkoutId(s, r.body.workout.id)
  {
    if day == "" then Fail(BadRequest, DayRequired)
    else
      var dayKey := Text.Lower(day);
      match GetWorkoutByDay(s, dayKey)
      case None => Fail(NotFound, WorkoutMissing)
      case Some(workout) =>
        match ExerciseTable(dayKey)
        case Some(entries) => Response(Ok, WorkoutWithExercises(workout, Synthesize(workout.id, entries)))
        case None => Response(Ok, WorkoutWithExercises(workout, GetExercisesByWorkoutId(s, workout.id)))
  }

  /** Exercises synthesized for two different workouts never share an id, and within
      one list the ids are distinct, as long as the lists have fewer than 100 entries
      (every table list does). */
  lemma SyntheticIdsDistinct(w1: int, e1: seq<TableEntry>, w2: int, e2: seq<TableEntry>, i: int, j: int)
    requires |e1| < 100 && |e2| < 100
    requires 0 <= i < |e1| && 0 <= j < |e2|
    requires w1 != w2 || i != j
    ensures Synthesize(w1, e1)[i].id != Synthesize(w2, e2)[j].id
  {
    if Synthesize(w1, e1)[i].id == Synthesize(w2, e2)[j].id {
      SyntheticIdInjective(w1, i, w2, j);
    }
  }

  /** In the seeded store every workout is found under a weekday name the table knows,
      so the handler never falls back to the stored exercises. */
  lemma SeededNeverFallsBack(day: string)
    requires GetWorkout(Seed.Initial(), day).status == Ok
    ensures Text.Lower(day) in Utils.DayNames
    ensures |GetWorkout(Seed.Initial(), day).body.exercises| == |ExerciseTable(Text.Lower(day)).value|
  {
    Seed.SeededCatalog();
    var s := Seed.Initial();
    var w := GetWorkoutByDay(s, Text.Lower(day)).value;
    forall k | 0 <= k < 7 ensures s.workouts[k].day == Utils.DayNames[k] {
      assert GetWorkoutByDay(s, Utils.DayNames[k]) == Some(s.workouts[k]);
    }
  }

  /** Friday's exercises differ between the two servers: the serverless one numbers them
      from the seeded Friday workout's id (5), giving 500 and 501, not 100 and 101. */
  lemma SeededFridayIds()
    ensures var r := GetWorkout(Seed.Initial(), "friday");
            r.status == Ok && |r.body.exercises| == 2
            && r.body.exercises[0].id == 500 && r.body.exercises[1].id == 501
    ensures var e := Routes.GetWorkout(Seed.Initial(), "friday");
            e.status == Ok && |e.body.exercises| == 2
            && e.body.exercises[0].id == 100 && e.body.exercises[1].id == 101
  {
    Seed.SeedingPrefix(7);
    assert Seed.Plan[..7] == Seed.Plan;
    SeededFridayWorkout(Seed.Initial());
    FridayIds(Seed.Initial());
  }

  /** In a fully seeded store the Friday workout is the fifth one inserted. */
  lemma SeededFridayWorkout(s: Store)
    requires Seed.SeededUpTo(s, 7)
    ensures GetWorkoutByDay(s, "friday").Some? && GetWorkoutByDay(s, "friday").value.id == 5
  {
    Seed.CatalogOfSeeded(s);
    assert Utils.DayNames[4] == "friday";
  }

  /** Both Friday lists, in any store whose Friday workout has id 5. */
  lemma FridayIds(s: Store)
    requires GetWorkoutByDay(s, "friday").Some? && GetWorkoutByDay(s, "friday").value.id == 5
    ensures var r := GetWorkout(s, "friday");
            r.status == Ok && |r.body.exercises| == 2
            && r.body.exercises[0].id == 500 && r.body.exercises[1].id == 501
    ensures var e := Routes.GetWorkout(s, "friday");
            e.status == Ok && |e.body.exercises| == 2
            && e.body.exercises[0].id == 100 && e.body.exercises[1].id == 101
  {
    assert Text.IsLower("friday");
    assert Text.Lower("friday") == "friday";
    assert "friday" in Utils.DayNames;
  }

  /** The record the serverless reader creates: as the Express one, but with the
      exercise list given explicitly as "[]". */
  function BlankRecord(dayNumber: int, today: Day): InsertProgress {
    InsertProgress(UserId, dayNumber, today, EmptyList, Some(false), Some(EmptyList), Some(""))
  }

  /** GET /api/progress/:dayNumber (serverless) — 400 for NaN, otherwise get-or-create. */
  function GetProgress(dayNumber: Option<int>, s: Store, clock: Clock): (r: Step<Response>)
    ensures dayNumber.None? ==> r == Step(s, Fail(BadRequest, InvalidDayNumber))
    ensures dayNumber.Some? ==> r.out.status == Ok && r.out.body.OneProgress?
    ensures dayNumber.Some? ==>
              GetProgressByUserAndDay(r.store, UserId, dayNumber.value) == Some(r.out.body.progress)
    ensures dayNumber.Some? && GetProgressByUserAndDay(s, UserId, dayNumber.value).None? ==>
              && r.store.progresses == s.progresses + [r.out.body.progress]
              && r.out.body.progress.id == s.progressId
              && r.out.body.progress.date == clock.today
              && r.out.body.progress.mealCompletions == EmptyList
              && !r.out.body.progress.workoutCompleted
              && r.out.body.progress.exerciseCompletions == EmptyList
              && r.out.body.progress.notes.None?
    ensures dayNumber.Some? && GetProgressByUserAndDay(s, UserId, dayNumber.value).Some? ==>
              r.store == s && Some(r.out.body.progress) == GetProgressByUserAndDay(s, UserId, dayNumber.value)
    ensures Extends(s, r.store)
    ensures UniqueProgress(s) ==> UniqueProgress(r.store)
  {
    match dayNumber
    case None => Step(s, Fail(BadRequest, InvalidDayNumber))
    case Some(d) =>
      var g := GetOrCreate(s, d, BlankRecord(d, clock.today), clock.now);
      Step(g.store, Response(Ok, OneProgress(g.out)))
  }

  /** The explicit "[]" is the default `createProgress` fills in anyway: both progress
      readers answer every request alike and leave the same store. */
  lemma SameAsExpress(dayNumber: Option<int>, s: Store, clock: Clock)
    ensures GetProgress(dayNumber, s, clock) == Routes.GetProgress(dayNumber, s, clock)
  {
  }
}

=== FILE: storage.dfy ===
/** `MemStorage` of `server/storage.ts` as a value: one insertion-ordered table
    per record kind (a JavaScript `Map` keyed by id) and one auto-increment
    counter per table. Every operation returns the new store instead of mutating. */
module Storage {
  import opened Wrappers
  import opened Seqs
  import opened Schema

  datatype Store = Store(
    meals: seq<Meal>,
    workouts: seq<Workout>,
    exercises: seq<Exercise>,
    progresses: seq<Progress>,
    mealId: int,
    workoutId: int,
    exerciseId: int,
    progressId: int)
  {
    /** Each table holds ids 1, 2, 3, ... in insertion order, and its counter is the next id. */
    ghost predicate Valid() {
      && IdsSequential(meals, (m: Meal) => m.id, mealId)
      && IdsSequential(workouts, (w: Workout) => w.id, workoutId)
      && IdsSequential(exercises, (e: Exercise) => e.id, exerciseId)
      && IdsSequential(progresses, (p: Progress) => p.id, progressId)
    }
  }

  ghost predicate IdsSequential<T>(xs: seq<T>, id: T -> int, next: int) {
    next == |xs| + 1 && forall i :: 0 <= i < |xs| ==> id(xs[i]) == i + 1
  }

  /** The store together with what an operation returned. */
  datatype Step<+T> = Step(store: Store, out: T)

  /** What `updateProgress` throws. */
  datatype StoreError = ProgressNotFound(id: int)

  /** The state right after the constructor's field initialisers: empty tables, counters at 1. */
  function Empty(): (s: Store)
    ensures s.Valid()
    ensures s.meals == [] && s.workouts == [] && s.exercises == [] && s.progresses == []
  {
    Store([], [], [], [], 1, 1, 1, 1)
  }

  // ----- meals -----

  /** All meals whose plan day number is `dayNumber`, in insertion order. */
  function GetMeals(s: Store, dayNumber: int): (r: seq<Meal>)
    ensures forall i :: 0 <= i < |r| ==> r[i] in s.meals && r[i].dayNumber == dayNumber
    ensures forall i :: 0 <= i < |s.meals| && s.meals[i].dayNumber == dayNumber ==> s.meals[i] in r
  {
    Filter(s.meals, (m: Meal) => m.dayNumber == dayNumber)
  }

  /** All meals whose weekday name is `day`, in insertion order. */
  function GetMealsByDay(s: Store, day: string): (r: seq<Meal>)
    ensures forall i :: 0 <= i < |r| ==> r[i] in s.meals && r[i].day == day
    ensures forall i :: 0 <= i < |s.meals| && s.meals[i].day == day ==> s.meals[i] in r
  {
    Filter(s.meals, (m: Meal) => m.day == day)
  }

  /** The next counter value becomes the id, the counter advances, and the meal goes to the end. */
  function CreateMeal(s: Store, ins: InsertMeal): (r: Step<Meal>)
    ensures r.out.id == s.mealId && r.out.Insert() == ins
    ensures r.store == s.(meals := s.meals + [r.out], mealId := s.mealId + 1)
    ensures s.Valid() ==> r.store.Valid()
  {
    var meal := ins.WithId(s.mealId);
    Step(s.(meals := s.meals + [meal], mealId := s.mealId + 1), meal)
  }

  /** A new meal shows up last among the meals of its weekday, and nowhere else. */
  lemma CreateMealQueries(s: Store, ins: InsertMeal, day: string)
    ensures var r := CreateMeal(s, ins);
      GetMealsByDay(r.store, day) == GetMealsByDay(s, day) + (if ins.day == day then [r.out] else [])
  {
    var r := CreateMeal(s, ins);
    FilterAppend(s.meals, [r.out], (m: Meal) => m.day == day);
  }

  /** A new meal shows up last among the meals of its plan day, and nowhere else. */
  lemma CreateMealDayNumberQueries(s: Store, ins: InsertMeal, dayNumber: int)
    ensures var r := CreateMeal(s, ins);
      GetMeals(r.store, dayNumber) == GetMeals(s, dayNumber) + (if ins.dayNumber == dayNumber then [r.out] else [])
  {
    var r := CreateMeal(s, ins);
    FilterAppend(s.meals, [r.out], (m: Meal) => m.dayNumber == dayNumber);
  }

  // ----- workouts -----

  /** The first workout whose plan day number is `dayNumber`. */
  function GetWorkout(s: Store, dayNumber: int): (r: Option<Workout>)
    ensures r.Some? ==> exists i :: 0 <= i < |s.workouts| && s.workouts[i] == r.value && r.value.dayNumber == dayNumber
                                   && forall j :: 0 <= j < i ==> s.workouts[j].dayNumber != dayNumber
    ensures r.None? <==> forall i :: 0 <= i < |s.workouts| ==> s.workouts[i].dayNumber != dayNumber
  {
    match FindIndex(s.workouts, (w: Workout) => w.dayNumber == dayNumber)
    case None => None
    case Some(i) => Some(s.workouts[i])
  }

  /** The first-inserted workout whose weekday name is `day`. */
  function GetWorkoutByDay(s: Store, day: string): (r: Option<Workout>)
    ensures r.Some? ==> exists i :: 0 <= i < |s.workouts| && s.workouts[i] == r.value && r.value.day == day
                                   && forall j :: 0 <= j < i ==> s.workouts[j].day != day
    ensures r.None? <==> forall i :: 0 <= i < |s.workouts| ==> s.workouts[i].day != day
  {
    match FindIndex(s.workouts, (w: Workout) => w.day == day)
    case None => None
    case Some(i) => Some(s.workouts[i])
  }

  function CreateWorkout(s: Store, ins: InsertWorkout): (r: Step<Workout>)
    ensures r.out.id == s.workoutId && r.out.Insert() == ins
    ensures r.store == s.(workouts := s.workouts + [r.out], workoutId := s.workoutId + 1)
    ensures s.Valid() ==> r.store.Valid()
  {
    var workout := ins.WithId(s.workoutId);
    Step(s.(workouts := s.workouts + [workout], workoutId := s.workoutId + 1), workout)
  }

  /** A new workout is found by its weekday only if no earlier workout has that weekday. */
  lemma CreateWorkoutQueries(s: Store, ins: InsertWorkout, day: string)
    ensures var r := CreateWorkout(s, ins);
      GetWorkoutByDay(r.store, day) ==
        if GetWorkoutByDay(s, day).Some? then GetWorkoutByDay(s, day)
        else if ins.day == day then Some(r.out) else None
  {
    var r := CreateWorkout(s, ins);
    var p := (w: Workout) => w.day == day;
    assert GetWorkoutByDay(r.store, day) == Find(r.store.workouts, p);
    assert GetWorkoutByDay(s, day) == Find(s.workouts, p);
    FindAppend(s.workouts, [r.out], p);
  }

  /** A new workout is found by its plan day only if no earlier workout has that day. */
  lemma CreateWorkoutDayNumberQueries(s: Store, ins: InsertWorkout, dayNumber: int)
    ensures var r := CreateWorkout(s, ins);
      GetWorkout(r.store, dayNumber) ==
        if GetWorkout(s, dayNumber).Some? then GetWorkout(s, dayNumber)
        else if ins.dayNumber == dayNumber then Some(r.out) else None
  {
    var r := CreateWorkout(s, ins);
    var p := (w: Workout) => w.dayNumber == dayNumber;
    assert GetWorkout(r.store, dayNumber) == Find(r.store.workouts, p);
    assert GetWorkout(s, dayNumber) == Find(s.workouts, p);
    FindAppend(s.workouts, [r.out], p);
  }

  // ----- exercises -----

  /** All exercises of workout `workoutId`, in insertion order. */
  function GetExercisesByWorkoutId(s: Store, workoutId: int): (r: seq<Exercise>)
    ensures forall i :: 0 <= i < |r| ==> r[i] in s.exercises && r[i].workoutId == workoutId
    ensures forall i :: 0 <= i < |s.exercises| && s.exercises[i].workoutId == workoutId ==> s.exercises[i] in r
  {
    Filter(s.exercises, (e: Exercise) => e.workoutId == workoutId)
  }

  function CreateExercise(s: Store, ins: InsertExercise): (r: Step<Exercise>)
    ensures r.out.id == s.exerciseId && r.out.Insert() == ins
    ensures r.store == s.(exercises := s.exercises + [r.out], exerciseId := s.exerciseId + 1)
    ensures s.Valid() ==> r.store.Valid()
  {
    var exercise := ins.WithId(s.exerciseId);
    Step(s.(exercises := s.exercises + [exercise], exerciseId := s.exerciseId + 1), exercise)
  }

  /** A new exercise shows up last among the exercises of its workout, and nowhere else. */
  lemma CreateExerciseQueries(s: Store, ins: InsertExercise, workoutId: int)
    ensures var r := CreateExercise(s, ins);
      GetExercisesByWorkoutId(r.store, workoutId) ==
        GetExercisesByWorkoutId(s, workoutId) + (if ins.workoutId == workoutId then [r.out] else [])
  {
    var r := CreateExercise(s, ins);
    FilterAppend(s.exercises, [r.out], (e: Exercise) => e.workoutId == workoutId);
  }

  // ----- progress -----

  /** No two progress records share a (userId, dayNumber) pair. */
  ghost predicate UniqueProgress(s: Store) {
    forall i, j :: 0 <= i < |s.progresses| && 0 <= j < |s.progresses| && i != j ==>
      !IsFor(s.progresses[j], s.progresses[i].userId, s.progresses[i].dayNumber)
  }


  predicate IsFor(p: Progress, userId: int, dayNumber: int) {
    p.userId == userId && p.dayNumber == dayNumber
  }

  /** The first-inserted progress record of `userId` for `dayNumber`, if there is one. */
  function GetProgressByUserAndDay(s: Store, userId: int, dayNumber: int): (r: Option<Progress>)
    ensures r.Some? ==> exists i :: 0 <= i < |s.progresses| && s.progresses[i] == r.value
                                   && IsFor(r.value, userId, dayNumber)
                                   && forall j :: 0 <= j < i ==> !IsFor(s.progresses[j], userId, dayNumber)
    ensures r.None? <==> forall i :: 0 <= i < |s.progresses| ==> !IsFor(s.progresses[i], userId, dayNumber)
  {
    match FindIndex(s.progresses, (p: Progress) => IsFor(p, userId, dayNumber))
    case None => None
    case Some(i) => Some(s.progresses[i])
  }

  /** `createProgress`: a falsy completion list becomes "[]", a falsy `workoutCompleted`
      becomes false, and a falsy `notes` (absent, null or "") becomes null. */
  function CreateProgress(s: Store, ins: InsertProgress, now: Timestamp): (r: Step<Progress>)
    ensures r.out.id == s.progressId && r.out.createdAt == now
    ensures r.out.userId == ins.userId && r.out.dayNumber == ins.dayNumber && r.out.date == ins.date
    ensures r.out.mealCompletions != Blank && r.out.exerciseCompletions != Blank
    ensures ins.mealCompletions != Blank ==> r.out.mealCompletions == ins.mealCompletions
    ensures ins.mealCompletions == Blank ==> r.out.mealCompletions == EmptyList
    ensures r.out.workoutCompleted <==> ins.workoutCompleted == Some(true)
    ensures (match ins.exerciseCompletions
             case Some(t) => t != Blank
             case None => false) ==> r.out.exerciseCompletions == ins.exerciseCompletions.value
    ensures ins.exerciseCompletions.None? || ins.exerciseCompletions == Some(Blank) ==>
              r.out.exerciseCompletions == DefaultExerciseCompletions
    ensures r.out.notes.Some? <==> ins.notes.Some? && ins.notes.value != ""
    ensures r.out.notes.Some? ==> r.out.notes == ins.notes
    ensures r.store == s.(progresses := s.progresses + [r.out], progressId := s.progressId + 1)
    ensures s.Valid() ==> r.store.Valid()
    ensures UniqueProgress(s) && GetProgressByUserAndDay(s, ins.userId, ins.dayNumber).None? ==>
              UniqueProgress(r.store)
  {
    var record := Progress(
      s.progressId,
      ins.userId,
      ins.dayNumber,
      ins.date,
      if ins.mealCompletions == Blank then EmptyList else ins.mealCompletions,
      ins.workoutCompleted.GetOr(DefaultWorkoutCompleted),
      match ins.exerciseCompletions
      case Some(t) => if t == Blank then DefaultExerciseCompletions else t
      case None => DefaultExerciseCompletions,
      match ins.notes
      case Some(n) => if n == "" then None else Some(n)
      case None => None,
      now);
    Step(s.(progresses := s.progresses + [record], progressId := s.progressId + 1), record)
  }

  /** `updateProgress`: an unknown id throws and changes nothing; otherwise the record
      with that id is replaced, in place, by its merge with the patch. */
  function UpdateProgress(s: Store, id: int, patch: ProgressPatch): (r: Step<Result<Progress, StoreError>>)
    ensures r.out.Failure? <==> forall i :: 0 <= i < |s.progresses| ==> s.progresses[i].id != id
    ensures r.out.Failure? ==> r.out.error == ProgressNotFound(id) && r.store == s
    ensures r.out.Success? ==>
      exists i :: 0 <= i < |s.progresses| && s.progresses[i].id == id
               && r.out.value == Merge(s.progresses[i], patch)
               && r.store == s.(progresses := s.progresses[i := r.out.value])
    ensures s.Valid() ==> r.store.Valid()
    ensures s.Valid() && r.out.Success? ==> r.store.progresses[id - 1] == r.out.value
    ensures UniqueProgress(s) && patch.userId.None? && patch.dayNumber.None? ==> UniqueProgress(r.store)
  {
    match FindIndex(s.progresses, (p: Progress) => p.id == id)
    case None => Step(s, Failure(ProgressNotFound(id)))
    case Some(i) =>
      var updated := Merge(s.progresses[i], patch);
      Step(s.(progresses := s.progresses[i := updated]), Success(updated))
  }

  /** `t` differs from `s` at most in its progress table and progress counter: the
      meals, workouts and exercises and their counters are untouched. */
  predicate SameCatalog(s: Store, t: Store) {
    t == s.(progresses := t.progresses, progressId := t.progressId)
  }

  /** `t` is `s` with progress records appended under consecutive ids taken from the
      progress counter, the counter advanced past them, and nothing else changed. */
  ghost predicate Extends(s: Store, t: Store) {
    && |t.progresses| >= |s.progresses|
    && t.progresses[..|s.progresses|] == s.progresses
    && t.progressId == s.progressId + (|t.progresses| - |s.progresses|)
    && (forall j :: |s.progresses| <= j < |t.progresses| ==>
          t.progresses[j].id == s.progressId + (j - |s.progresses|))
    && SameCatalog(s, t)
  }

  /** A store extends itself, and `createProgress` extends the store by one record. */
  lemma {:induction false} CreateProgressExtends(s: Store, ins: InsertProgress, now: Timestamp)
    ensures Extends(s, s)
    ensures Extends(s, CreateProgress(s, ins, now).store)
  {
    assert s.progresses[..|s.progresses|] == s.progresses;
    var t := CreateProgress(s, ins, now).store;
    assert t.progresses == s.progresses + [CreateProgress(s, ins, now).out];
    assert t.progresses[..|s.progresses|] == s.progresses;
  }

  lemma ExtendsTransitive(s: Store, t: Store, u: Store)
    requires Extends(s, t) && Extends(t, u)
    ensures Extends(s, u)
  {
    assert u.progresses[..|s.progresses|] == u.progresses[..|t.progresses|][..|s.progresses|];
    forall j | |s.progresses| <= j < |t.progresses|
      ensures u.progresses[j].id == s.progressId + (j - |s.progresses|)
    {
      assert u.progresses[j] == u.progresses[..|t.progresses|][j];
    }
  }
}

=== FILE: text.dfy ===
/** `String.prototype.toLowerCase`, restricted to the ASCII letters the route
    parameters are made of. */
module Text {

  function LowerChar(c: char): (r: char)
    ensures 'A' <= c <= 'Z' ==> r as int == c as int + 32
    ensures !('A' <= c <= 'Z') ==> r == c
    ensures !('A' <= r <= 'Z')
  {
    if 'A' <= c <= 'Z' then (c as int + 32) as char else c
  }

  /** A string with no upper-case ASCII letter. */
  predicate IsLower(s: string) {
    forall i :: 0 <= i < |s| ==> !('A' <= s[i] <= 'Z')
  }

  function Lower(s: string): (r: string)
    ensures |r| == |s|
    ensures IsLower(r)
    ensures IsLower(s) ==> r == s
    ensures forall i :: 0 <= i < |s| ==> r[i] == LowerChar(s[i])
  {
    seq(|s|, i requires 0 <= i < |s| => LowerChar(s[i]))
  }
}

=== FILE: utils.dfy ===
/** The calendar and list helpers of `client/src/lib/utils.ts`. Plan days are
    numbered from 1; dates are day counts (see `Schema.Day`). */
module Utils {
  import opened Wrappers
  import opened Schema

  /** 2023-03-31, the date of plan day 1, as days since 1970-01-01. */
  const PlanStartDay: Day := 19447

  /** `Math.trunc(a / b)`: division rounding toward zero. */
  function JsQuot(a: int, b: int): int
    requires b > 0
  {
    if a >= 0 then a / b else -((-a) / b)
  }

  /** JavaScript's `a % b` for `b > 0`: the remainder of the division that rounds toward
      zero, so it has the sign of `a` and is smaller than `b` in size. */
  function JsRem(a: int, b: int): (r: int)
    requires b > 0
    ensures a == JsQuot(a, b) * b + r
    ensures -b < r < b
    ensures a >= 0 ==> r >= 0
    ensures a < 0 ==> r <= 0
  {
    if a >= 0 then a % b else -((-a) % b)
  }

  /** `dayNumberToWeekNumber`: `Math.ceil(dayNumber / 7)`, the week a plan day falls in. */
  function WeekNumber(dayNumber: int): (r: int)
    ensures 7 * (r - 1) < dayNumber <= 7 * r
    ensures 1 <= dayNumber <= 40 ==> 1 <= r <= 6
  {
    (dayNumber + 6) / 7
  }

  /** Later days never fall in earlier weeks. */
  lemma WeekNumberMonotonic(d1: int, d2: int)
    requires d1 <= d2
    ensures WeekNumber(d1) <= WeekNumber(d2)
  {
  }

  /** `dayNumberToDayOfWeek`: `(dayNumber - 1) % 7`, 0 for Monday. */
  function DayOfWeek(dayNumber: int): (r: int)
    ensures dayNumber >= 1 ==> 0 <= r < 7
    ensures dayNumber < 1 ==> -7 < r <= 0
  {
    JsRem(dayNumber - 1, 7)
  }

  /** The week number and the day of the week split a plan day into its two coordinates. */
  lemma {:induction false} WeekAndWeekday(dayNumber: int)
    requires dayNumber >= 1
    ensures dayNumber - 1 == 7 * (WeekNumber(dayNumber) - 1) + DayOfWeek(dayNumber)
  {
    var w := WeekNumber(dayNumber);
    var r := DayOfWeek(dayNumber);
    assert r == (dayNumber - 1) % 7;
    assert (dayNumber - 1) == 7 * ((dayNumber - 1) / 7) + r;
    assert (dayNumber + 6) / 7 == (dayNumber - 1) / 7 + 1 by {
      assert dayNumber + 6 == (dayNumber - 1) + 7;
    }
  }

  /** The weekday index repeats every seven days. */
  lemma {:induction false} DayOfWeekPeriodic(dayNumber: int)
    requires dayNumber >= 1
    ensures DayOfWeek(dayNumber + 7) == DayOfWeek(dayNumber)
  {
    assert DayOfWeek(dayNumber + 7) == (dayNumber - 1 + 7) % 7;
  }

  /** `dayNames`, indexed by `DayOfWeek`. */
  const DayNames: seq<string> := ["monday", "tuesday", "wednesday", "thursday", "friday", "saturday", "sunday"]

  /** `getDayName`: `dayNames[dayNumberToDayOfWeek(dayNumber)]`, which is `undefined`
      (here `None`) when the JavaScript remainder is negative. */
  function DayName(dayNumber: int): (r: Option<string>)
    ensures r.Some? <==> DayOfWeek(dayNumber) >= 0
    ensures dayNumber >= 1 ==> r.Some? && r.value in DayNames
    ensures r.Some? ==> r.value == DayNames[DayOfWeek(dayNumber)]
  {
    var i := DayOfWeek(dayNumber);
    if 0 <= i < |DayNames| then Some(DayNames[i]) else None
  }

  /** Day 1 is a Monday and day 7 a Sunday of the plan, and names repeat weekly. */
  lemma DayNameFacts(dayNumber: int)
    requires dayNumber >= 1
    ensures DayName(1) == Some("monday") && DayName(7) == Some("sunday")
    ensures DayName(dayNumber + 7) == DayName(dayNumber)
  {
    DayOfWeekPeriodic(dayNumber);
  }

  /** `getDateFromDayNumber`: the plan's start date moved forward by `dayNumber - 1` days. */
  function DateOfDay(dayNumber: int): (r: Day)
    ensures r - PlanStartDay == dayNumber - 1
  {
    PlanStartDay + dayNumber - 1
  }

  /** Consecutive plan days fall on consecutive dates. */
  lemma ConsecutiveDates(dayNumber: int)
    ensures DateOfDay(dayNumber + 1) == DateOfDay(dayNumber) + 1
  {
  }

  /** `calculateTotalCalories`: the left fold `total + meal.calories` starting from 0. */
  function TotalCalories(meals: seq<Meal>): (r: int)
    ensures |meals| == 0 ==> r == 0
    ensures |meals| == 1 ==> r == meals[0].calories
    ensures (forall i :: 0 <= i < |meals| ==> meals[i].calories >= 0) ==> r >= 0
  {
    if |meals| == 0 then 0 else TotalCalories(meals[..|meals| - 1]) + meals[|meals| - 1].calories
  }

  /** The calorie total of two lists of meals is the sum of their totals. With the
      one-meal case of `TotalCalories` this fixes the total as the sum of the calories. */
  lemma {:induction false} TotalCaloriesAppend(a: seq<Meal>, b: seq<Meal>)
    ensures TotalCalories(a + b) == TotalCalories(a) + TotalCalories(b)
    decreases |b|
  {
    if |b| == 0 {
      assert a + b == a;
    } else {
      assert (a + b)[..|a + b| - 1] == a + b[..|b| - 1];
      TotalCaloriesAppend(a, b[..|b| - 1]);
    }
  }

  /** `safeJsonParse`: the parsed list, or `fallback` where `JSON.parse` would throw. */
  function SafeJsonParse(t: IdListText, fallback: seq<int>): (r: seq<int>)
    ensures t.Json? ==> r == t.ids
    ensures !t.Json? ==> r == fallback
  {
    ParseIds(t).GetOr(fallback)
  }
}

=== FILE: weekly_summary.dfy ===
/** The three tallies of `client/src/components/weekly-summary.tsx`, computed over the
    list the weekly-summary endpoint returns (or over nothing while it is loading). */
module WeeklySummary {
  import opened Wrappers
  import opened Schema
  import opened Seqs
  import Utils
  import opened Numbers

  /** The properties the tallies read from one element of the list. `day` is the
      element's `day` property and `dailyWalkCompleted` its walk flag; progress records
      carry neither, so for them these read as `undefined` (`None` and `false`). */
  datatype SummaryRecord = SummaryRecord(
    day: Option<string>,
    mealCompletions: IdListText,
    workoutCompleted: bool,
    dailyWalkCompleted: bool)

  /** A progress record as the summary sees it. */
  function FromProgress(p: Progress): (r: SummaryRecord)
    ensures r.day.None? && !r.dailyWalkCompleted
    ensures r.mealCompletions == p.mealCompletions && r.workoutCompleted == p.workoutCompleted
  {
    SummaryRecord(None, p.mealCompletions, p.workoutCompleted, false)
  }

  /** The list of progress records as the summary sees it. */
  function AsRecords(ps: seq<Progress>): (rs: seq<SummaryRecord>)
    ensures |rs| == |ps|
    ensures forall i :: 0 <= i < |ps| ==> rs[i] == FromProgress(ps[i])
  {
    seq(|ps|, i requires 0 <= i < |ps| => FromProgress(ps[i]))
  }

  /** A `{ completed, total }` pair; the percentage is derived from it. */
  datatype Completion = Completion(completed: int, total: int)

  /** `(completed / total) * 100` in JavaScript: `NaN` for 0/0 and an infinity for a
      non-zero count over a zero total. */
  function Percentage(c: Completion): (r: Number)
    ensures r.Finite? <==> c.total != 0
    ensures r.NaN? <==> c.total == 0 && c.completed == 0
    ensures r.Infinity? <==> c.total == 0 && c.completed > 0
    ensures r.NegInfinity? <==> c.total == 0 && c.completed < 0
    ensures r.Finite? ==> r.x * (c.total as real) == (c.completed as real) * 100.0
    ensures r.Finite? && 0 <= c.completed <= c.total ==> 0.0 <= r.x <= 100.0
  {
    var completed, total := c.completed as real, c.total as real;
    if c.total == 0 then Divide(completed, total)
    else
      var q := completed / total;
      assert q * total == completed;
      assert (q * 100.0) * total == (q * total) * 100.0;
      assert 0 <= c.completed <= c.total ==> 0.0 <= q <= 1.0 by {
        if 0 <= c.completed <= c.total {
          QuotientWithinUnit(completed, total);
        }
      }
      Finite(q * 100.0)
  }

  // ----- meals -----

  /** The meal target: three meals on each of seven days. */
  const MealTarget: int := 21

  /** The number of ids in a day's meal list, where a list that does not parse counts as empty. */
  function MealCount(r: SummaryRecord): (n: nat)
    ensures r.mealCompletions.Json? ==> n == |r.mealCompletions.ids|
    ensures !r.mealCompletions.Json? ==> n == 0
  {
    |Utils.SafeJsonParse(r.mealCompletions, [])|
  }

  /** The running total `totalMealsCompleted` of the `forEach` over `rs`. */
  function MealsCompleted(rs: seq<SummaryRecord>): (n: nat)
    ensures |rs| == 0 ==> n == 0
    ensures |rs| == 1 ==> n == MealCount(rs[0])
  {
    if |rs| == 0 then 0 else MealsCompleted(rs[..|rs| - 1]) + MealCount(rs[|rs| - 1])
  }

  /** The meal tally adds up day by day: the count of two lists is the sum of their
      counts. With the one-day case of `MealsCompleted` this fixes the tally as the sum
      of the days' list lengths. */
  lemma {:induction false} MealsCompletedAppend(a: seq<SummaryRecord>, b: seq<SummaryRecord>)
    ensures MealsCompleted(a + b) == MealsCompleted(a) + MealsCompleted(b)
    decreases |b|
  {
    if |b| == 0 {
      assert a + b == a;
    } else {
      assert (a + b)[..|a + b| - 1] == a + b[..|b| - 1];
      MealsCompletedAppend(a, b[..|b| - 1]);
    }
  }

  /** `calculateMealCompletion`: ids ticked across the week against a fixed target of 21. */
  function MealCompletion(data: Option<seq<SummaryRecord>>): (c: Completion)
    ensures c.total == MealTarget
    ensures data.None? ==> c.completed == 0
    ensures data.Some? && |data.value| == 0 ==> c.completed == 0
    ensures data.Some? ==> c.completed == MealsCompleted(data.value)
    ensures c.completed >= 0
  {
    match data
    case None => Completion(0, MealTarget)
    case Some(rs) => Completion(MealsCompleted(rs), MealTarget)
  }

  /** Nothing caps the meal tally: a day whose list repeats an id (as completing a meal
      twice leaves it) counts every copy, and 22 ticks give more than 100%. */
  lemma MealPercentageCanExceedHundred()
    ensures var r := SummaryRecord(None, Json(seq(22, i => 1)), false, false);
            Percentage(MealCompletion(Some([r]))).Finite?
            && Percentage(MealCompletion(Some([r]))).x > 100.0
  {
    var r := SummaryRecord(None, Json(seq(22, i => 1)), false, false);
    assert [r][..0] == [];
    assert MealsCompleted([r]) == 22;
  }

  // ----- workouts -----

  /** `["saturday", "sunday"].includes(day.day)`. */
  predicate IsWeekend(day: Option<string>) {
    day == Some("saturday") || day == Some("sunday")
  }

  /** A day counts toward the workout total unless it is a weekend day whose workout
      was skipped. */
  predicate Counted(r: SummaryRecord) {
    !IsWeekend(r.day) || r.workoutCompleted
  }

  predicate Done(r: SummaryRecord) {
    r.workoutCompleted
  }

  /** The `forEach` of `calculateWorkoutCompletion` over `rs`: `total` counts the
      counted days and `completed` the days with a finished workout. */
  function WorkoutTally(rs: seq<SummaryRecord>): (c: Completion)
    ensures c.total == |Filter(rs, Counted)|
    ensures c.completed == |Filter(rs, Done)|
    ensures 0 <= c.completed <= c.total <= |rs|
    decreases |rs|
  {
    if |rs| == 0 then Completion(0, 0)
    else
      var init := rs[..|rs| - 1];
      var last := rs[|rs| - 1];
      var c := WorkoutTally(init);
      assert rs == init + [last];
      FilterAppend(init, [last], Counted);
      FilterAppend(init, [last], Done);
      assert Filter([last], Counted) == (if Counted(last) then [last] else []);
      assert Filter([last], Done) == (if Done(last) then [last] else []);
      if Counted(last) then
        Completion(if last.workoutCompleted then c.completed + 1 else c.completed, c.total + 1)
      else
        c
  }

  /** The default shown before the list arrives: five workout days. */
  const WorkoutTarget: int := 5

  /** `calculateWorkoutCompletion`. */
  function WorkoutCompletion(data: Option<seq<SummaryRecord>>): (c: Completion)
    ensures data.None? ==> c == Completion(0, WorkoutTarget)
    ensures data.Some? ==> c == WorkoutTally(data.value)
    ensures 0 <= c.completed <= c.total
  {
    match data
    case None => Completion(0, WorkoutTarget)
    case Some(rs) => WorkoutTally(rs)
  }

  /** When no element names a weekend day, every day counts toward the workout total. */
  lemma NoWeekendCountsEveryDay(rs: seq<SummaryRecord>)
    requires forall i :: 0 <= i < |rs| ==> !IsWeekend(rs[i].day)
    ensures WorkoutCompletion(Some(rs)).total == |rs|
  {
    FilterAllOrNone(rs, Counted);
  }

  /** As written, the summary of the seven records the server returns always has a
      workout total of 7: records carry no `day`, so weekends are never excused. */
  lemma AsWrittenWeekTotalIsSeven(ps: seq<Progress>)
    requires |ps| == 7
    ensures WorkoutCompletion(Some(AsRecords(ps))).total == 7
  {
    NoWeekendCountsEveryDay(AsRecords(ps));
  }

  /** A progress record as the summary evidently means to see it: its `day` is the
      weekday name of its plan day. */
  function FromProgressByDay(p: Progress): (r: SummaryRecord)
    ensures r.day == Utils.DayName(p.dayNumber)
    ensures r.mealCompletions == p.mealCompletions && r.workoutCompleted == p.workoutCompleted
    ensures !r.dailyWalkCompleted
  {
    SummaryRecord(Utils.DayName(p.dayNumber), p.mealCompletions, p.workoutCompleted, false)
  }

  function AsRecordsByDay(ps: seq<Progress>): (rs: seq<SummaryRecord>)
    ensures |rs| == |ps|
    ensures forall i :: 0 <= i < |ps| ==> rs[i] == FromProgressByDay(ps[i])
  {
    seq(|ps|, i requires 0 <= i < |ps| => FromProgressByDay(ps[i]))
  }

  /** Within a summary week, the record at position `i` falls on weekday `i`. */
  lemma {:induction false} WeekdayOfPosition(weekNumber: int, i: int)
    requires weekNumber >= 1 && 0 <= i < 7
    ensures Utils.DayName((weekNumber - 1) * 7 + 1 + i) == Some(Utils.DayNames[i])
  {
    var k := weekNumber - 1;
    assert Utils.DayOfWeek(k * 7 + 1 + i) == (k * 7 + i) % 7;
    assert (k * 7 + i) % 7 == i;
  }

  /** Of the seven weekday names, exactly the last two are weekend days. */
  lemma WeekendNames(i: int)
    requires 0 <= i < 7
    ensures IsWeekend(Some(Utils.DayNames[i])) <==> i >= 5
  {
  }

  /** A week listed Monday to Sunday has a workout total of 5 plus the weekend days on
      which a workout was still done. */
  lemma {:induction false} MondayToSundayTotal(rs: seq<SummaryRecord>)
    requires |rs| == 7
    requires forall i :: 0 <= i < 7 ==> rs[i].day == Some(Utils.DayNames[i])
    ensures WorkoutTally(rs).total == WorkoutTarget + |Filter(rs[5..], Done)|
  {
    forall i | 0 <= i < 7 ensures IsWeekend(rs[i].day) <==> i >= 5 {
      WeekendNames(i);
    }
    assert rs == rs[..5] + rs[5..];
    FilterAppend(rs[..5], rs[5..], Counted);
    assert forall i :: 0 <= i < 5 ==> Counted(rs[..5][i]) by {
      forall i | 0 <= i < 5 ensures Counted(rs[..5][i]) {
        assert rs[..5][i] == rs[i];
      }
    }
    FilterAllOrNone(rs[..5], Counted);
    assert forall i :: 0 <= i < 2 ==> (Counted(rs[5..][i]) <==> Done(rs[5..][i])) by {
      forall i | 0 <= i < 2 ensures Counted(rs[5..][i]) <==> Done(rs[5..][i]) {
        assert rs[5..][i] == rs[5 + i];
      }
    }
    FilterSame(rs[5..], Counted, Done);
  }

  /** With weekday names taken from the plan day, the week the server returns has a
      workout total of 5 plus the weekend days on which a workout was still done. */
  lemma {:induction false} ByDayWeekTotal(weekNumber: int, ps: seq<Progress>)
    requires weekNumber >= 1 && |ps| == 7
    requires forall i :: 0 <= i < 7 ==> ps[i].dayNumber == (weekNumber - 1) * 7 + 1 + i
    ensures var rs := AsRecordsByDay(ps);
            WorkoutCompletion(Some(rs)).total == WorkoutTarget + |Filter(rs[5..], Done)|
  {
    var rs := AsRecordsByDay(ps);
    forall i | 0 <= i < 7 ensures rs[i].day == Some(Utils.DayNames[i]) {
      WeekdayOfPosition(weekNumber, i);
    }
    MondayToSundayTotal(rs);
  }

  /** Two predicates that agree on every element filter a sequence alike. */
  lemma {:induction false} FilterSame(xs: seq<SummaryRecord>, p: SummaryRecord -> bool, q: SummaryRecord -> bool)
    requires forall i :: 0 <= i < |xs| ==> p(xs[i]) == q(xs[i])
    ensures Filter(xs, p) == Filter(xs, q)
  {
    if |xs| > 0 {
      assert forall i :: 0 <= i < |xs[1..]| ==> xs[1..][i] == xs[i + 1];
      FilterSame(xs[1..], p, q);
    }
  }

  /** The corrected tally: a week in which no workout was done scores 0 of 5, the same
      target the summary shows before its data arrives. */
  lemma ByDayIdleWeek(weekNumber: int, ps: seq<Progress>)
    requires weekNumber >= 1 && |ps| == 7
    requires forall i :: 0 <= i < 7 ==> ps[i].dayNumber == (weekNumber - 1) * 7 + 1 + i
    requires forall i :: 0 <= i < 7 ==> !ps[i].workoutCompleted
    ensures WorkoutCompletion(Some(AsRecordsByDay(ps))) == Completion(0, WorkoutTarget)
  {
    var rs := AsRecordsByDay(ps);
    ByDayWeekTotal(weekNumber, ps);
    FilterAllOrNone(rs[5..], Done);
    FilterAllOrNone(rs, Done);
  }

  // ----- walks -----

  /** The walk target: one walk on each of seven days. */
  const WalkTarget: int := 7

  predicate Walked(r: SummaryRecord) {
    r.dailyWalkCompleted
  }

  /** The running count `totalWalksCompleted`: days whose walk flag is set. */
  function WalksCompleted(rs: seq<SummaryRecord>): (n: nat)
    ensures n == |Filter(rs, Walked)|
    decreases |rs|
  {
    if |rs| == 0 then 0
    else
      var init := rs[..|rs| - 1];
      var last := rs[|rs| - 1];
      assert rs == init + [last];
      FilterAppend(init, [last], Walked);
      assert Filter([last], Walked) == (if Walked(last) then [last] else []);
      WalksCompleted(init) + (if last.dailyWalkCompleted then 1 else 0)
  }

  /** `calculateDailyWalkCompletion`: walked days against a fixed target of 7. */
  function WalkCompletion(data: Option<seq<SummaryRecord>>): (c: Completion)
    ensures c.total == WalkTarget
    ensures data.None? ==> c.completed == 0
    ensures data.Some? ==> 0 <= c.completed <= |data.value|
    ensures data.Some? ==> c.completed == |Filter(data.value, Walked)|
  {
    match data
    case None => Completion(0, WalkTarget)
    case Some(rs) => Completion(WalksCompleted(rs), WalkTarget)
  }

  /** Progress records have no walk flag, so a summary of server data never counts a walk. */
  lemma ServerDataHasNoWalks(ps: seq<Progress>)
    ensures WalkCompletion(Some(AsRecords(ps))).completed == 0
    ensures WalkCompletion(Some(AsRecordsByDay(ps))).completed == 0
  {
    FilterAllOrNone(AsRecords(ps), Walked);
    FilterAllOrNone(AsRecordsByDay(ps), Walked);
  }
}

=== FILE: wrappers.dfy ===
/** Failure-compatible wrappers used throughout the model: `Option` stands for a
    JavaScript value that may be `undefined`/`null`, `Result` for an operation that
    may throw. */
module Wrappers {

  datatype Option<+T> = None | Some(value: T) {

    /** The wrapped value, or `default` when there is none. */
    function GetOr(default: T): (r: T)
      ensures Some? ==> r == value
      ensures None? ==> r == default
    {
      match this
      case Some(v) => v
      case None => default
    }
  }

  datatype Result<+R, +E> = Success(value: R) | Failure(error: E)
}
